=== FILE: README.md ===
# Stepper wizard: a Dafny model

This project models an Angular wizard application. The core is a generic **stepper engine**,
`StepperService`. It keeps an ordered list of step registrations and a current index. It also
keeps a status per step (pending, active, finished or error), a visited record, a private record
of which errors it synthesised, and a payload store keyed by step index or alias. It supports
these operations:

- `registerStep`, which rejects a duplicate alias and merges metadata on re-registration;
- `unregisterStep`;
- `goTo`, `next` and `prev`, guarded by the current step's `canExit`;
- `reset`;
- `setStatus`;
- `saveData` and `getData`.

An implicit reconciliation effect runs whenever the current index or the step count changes. It
marks the current step visited, makes it active when pending, and gives every index from 0 up to
the step count at least a pending status. Those indices need not be the registered ones.

Around the engine the model covers:

- **The stepper view component:** the class, colour, icon and tooltip helpers, click and keyboard
  navigation, and the step component that saves its payload when it is destroyed.
- **The form-steps component:** a five-step wizard that moves to the nearest enabled step.
- **The collateral service:** a list of guarantees with a running total and a page window.
- **The basic-info service:** a contracts search that replaces the buffer on page 1 and appends on
  later pages.
- **The basic-info component:** search, paging and the two mutually exclusive locks, one for a
  manually selected contract and one for a Deal RAS.

Modelling choices:

- **Engine state.** The engine is a class whose fields are the service's signals. `Snapshot()`
  reads them as an `Engine` value. Every method is proved against a pure specification function
  on that value (`RegisterSpec`, `GoToSpec`, `ResetSpec`, and so on), and the properties of the
  engine are lemmas over those functions.
- **The reconciliation effect.** Angular signals notify only when a value changes. So the effect
  (`Reconciled`) is applied at the end of an operation exactly when the count or the current
  index differs from before (`Settle`).
- **Guards.** A `canExit` guard is represented by whether it is set (`hasCanExit`). What awaiting
  it produced is a `GuardResult` parameter: exactly `false` (`Block`), any other value (`Allow`),
  or an exception (`Throws`).
- **Data keys.** The payload store is a JavaScript object, so index keys become their decimal
  property-key strings (`JsCore.IntToString`). `saveData(1, …)` and `saveData("1", …)` therefore
  share one slot.
- **Asynchronous requests.** HTTP requests are split into the call that starts them (which
  returns the request it would send) and the handlers for the answer (`ApplySuccess` and
  `ApplyError`, `CompleteApplyRAS`).

Notes on the code's own behaviour, which the model follows:

- **`reset` and out-of-range indices.** `reset` clamps the index only for `currentIndex`. It
  writes the statuses and the visited record with the unclamped index (stepper.service.ts:300-305).
  The effect then runs only when `currentIndex` changed. So `reset({index: 99})` on a three-step
  engine that already sits on its last step leaves no step active, and marks index 99 visited.
  `Stepper.ResetOutOfRange` proves this.
- **The clamp in `registerStep`.** Registration never lowers the count, and `currentIndex` is
  always below the count when there are steps. So the clamp in `registerStep`
  (stepper.service.ts:170-173) never changes anything. `StepperService.RegisterStep` asserts this
  instead of branching.
- **Collateral default status.** A new guarantee's default status is `"Dados completos"`
  (collateral.service.ts:55). The accompanying unit test text expects a different string.

## Model

| member | source | states |
|---|---|---|
| JsCore.FindIndex | src/app/FormStepsComponent/form-steps.component.ts:79 | the first position satisfying the predicate, or -1 exactly when no element does |
| JsCore.Find | src/app/stepper/stepper.service.ts:212-214 | the first element satisfying the predicate, None exactly when none does |
| JsCore.SliceWindow | src/app/FormStepsComponent/form-steps.component.ts:82-83 | with non-negative positions, `slice` is the window cut off at the end of the sequence |
| JsCore.SliceFromNegative | src/app/FormStepsComponent/form-steps.component.ts:94-95 | a negative start keeps the last k elements (the case `findIndex` = -1 reaches) |
| JsCore.Reverse | src/app/FormStepsComponent/form-steps.component.ts:82-83 | same length, element k is element n-1-k of the input |
| JsCore.TrimStartSpec | src/app/FormStepsComponent/contents/basic-info/basic-info.component.ts:232 | the leading part dropped is all white space; what remains is a suffix not starting with white space |
| JsCore.TrimEndSpec | src/app/FormStepsComponent/contents/basic-info/basic-info.component.ts:232 | the trailing part dropped is all white space; what remains is a prefix not ending with white space |
| JsCore.TrimEdges | src/app/FormStepsComponent/contents/basic-info/basic-info.component.ts:232 | a trimmed string has no white space at either end |
| JsCore.TrimWindow | src/app/FormStepsComponent/contents/basic-info/basic-info.component.ts:232 | the trimmed string is a contiguous part of the input surrounded only by white space |
| JsCore.TrimIdempotent | src/app/FormStepsComponent/contents/basic-info/basic-info.component.ts:232 | trimming twice is trimming once |
| JsCore.TrimEmptyIffAllWhiteSpace | src/app/FormStepsComponent/contents/basic-info/basic-info.component.ts:232-238 | the trimmed id is empty (the "Informe o Deal RAS" branch) exactly when the input is all white space |
| JsCore.FilterTruthyPair | src/app/stepper/stepper.component.ts:166-172 | `filter(Boolean)` over two optional classes keeps each truthy one, in order |
| JsCore.JoinTruthyPair | src/app/stepper/stepper.component.ts:166-172 | joining the filtered pair gives both words separated by a space, one alone, or the empty string |
| JsCore.NatToString | src/app/stepper/stepper.service.ts:26 | a non-empty numeral of decimal digits, with two or more digits exactly from 10 up |
| JsCore.IntToStringInjective | src/app/stepper/stepper.service.ts:26 | distinct integers become distinct property keys |
| StepperTypes.MergeNoMeta | src/app/stepper/stepper.service.ts:97-128 | re-registering without metadata leaves a registration's metadata unchanged |
| StepperTypes.MergeIntoEmpty | src/app/stepper/stepper.service.ts:97-128 | the per-field merge applied to empty metadata yields the new metadata, so it agrees with what a first registration stores |
| StepperTypes.MergeIdempotent | src/app/stepper/stepper.service.ts:97-128 | re-registering twice with the same metadata equals once |
| StepperTypes.MergeKeepsGuardsAndPrefersNew | src/app/stepper/stepper.service.ts:97-128 | a set guard is never dropped; a present new field wins, an absent one keeps the old value |
| Stepper.Range | src/app/stepper/stepper.service.ts:60-72 | exactly the integers lo .. hi-1, the indices the effect loop visits |
| Stepper.AliasIndex | src/app/stepper/stepper.service.ts:12-22 | a string is a key of the alias map exactly when some registration has it as a truthy alias |
| Stepper.AliasIndexAt | src/app/stepper/stepper.service.ts:12-22 | with unique aliases, the alias map sends each step's alias to that step's index |
| Stepper.StepperService.AliasToIndex | src/app/stepper/stepper.service.ts:12-22 | the loop builds exactly the alias map of the current registrations |
| Stepper.FindStepAt | src/app/stepper/stepper.service.ts:212-214 | with unique indices, looking a step up by index finds exactly that registration |
| Stepper.UpdateRegistrations | src/app/stepper/stepper.service.ts:97-128 | re-registration keeps the number of registrations |
| Stepper.Unregistered | src/app/stepper/stepper.service.ts:179 | the filter keeps exactly the registrations with other indices |
| Stepper.UnregisteredUnique | src/app/stepper/stepper.service.ts:179 | the filter keeps indices and aliases unique |
| Stepper.UnregisteredCount | src/app/stepper/stepper.service.ts:179 | removing a registered index shortens the list by exactly one when indices are unique; an unknown index changes nothing |
| Stepper.ReconcileNeverDowngrades | src/app/stepper/stepper.service.ts:60-72 | the effect keeps finished, error and active statuses and raises pending only to active at the current index |
| Stepper.ReconcileCovers | src/app/stepper/stepper.service.ts:60-72 | after the effect every index below the count has a status, and the current one is active unless it was finished or error |
| Stepper.ReconcileIdempotent | src/app/stepper/stepper.service.ts:52-76 | running the effect twice equals running it once |
| Stepper.StepperService.Reconcile | src/app/stepper/stepper.service.ts:52-76 | the loop produces the reconciled statuses and marks the current index visited |
| Stepper.StepperService.constructor | src/app/stepper/stepper.service.ts:24-77 | a new service is the initial engine after the effect's first run, and keeps the invariant |
| Stepper.InitialWellFormed | src/app/stepper/stepper.service.ts:24-77 | the initial engine satisfies the invariant, with only index 0 visited and no statuses |
| Stepper.RegisterDuplicateAlias | src/app/stepper/stepper.service.ts:84-91 | an alias already in use makes registration fail with nothing changed, even for the step that owns it |
| Stepper.RegisterExistingIndex | src/app/stepper/stepper.service.ts:97-128 | re-registering an index keeps the count, the indices and the aliases, merges the metadata, keeps the other statuses, and keeps the index's own status (pending if it had none) |
| Stepper.RegisterNewIndex | src/app/stepper/stepper.service.ts:129-168 | a new index appends exactly one registration, with the given alias and metadata, and gets a status |
| Stepper.RegisterWellFormed | src/app/stepper/stepper.service.ts:79-174 | registration keeps the invariant: unique indices, unique aliases, and a current index below the count (or 0 with no steps) |
| Stepper.StepperService.RegisterStep | src/app/stepper/stepper.service.ts:79-174 | the new state and outcome are exactly the registration specification, and the invariant holds |
| Stepper.UnregisterRemoves | src/app/stepper/stepper.service.ts:176-191 | unregistering removes every registration with that index and keeps the flags and data. Other statuses keep their keys, and every non-pending one keeps its value. When neither the count nor the clamped index changes, the statuses lose exactly that entry and visited stays; otherwise the effect adds the new current index to visited |
| Stepper.UnregisterWellFormed | src/app/stepper/stepper.service.ts:176-191 | unregistration keeps the invariant |
| Stepper.RegistrationClamps | src/app/stepper/stepper.service.ts:170-173 | both register and unregister pull an out-of-range current index back to max(0, count-1) |
| Stepper.StepperService.UnregisterStep | src/app/stepper/stepper.service.ts:176-191 | the new state is exactly the unregistration specification, and the invariant holds |
| Stepper.GoToRejects | src/app/stepper/stepper.service.ts:201-234 | with no steps, an unknown alias, an out-of-range index or a blocking guard, goTo returns false and changes nothing; it returns true exactly when a target is resolved |
| Stepper.GoToFailOpen | src/app/stepper/stepper.service.ts:216-234 | a throwing guard counts as permission, and the guard result matters only when the current step has a guard |
| Stepper.GoToForwardBelowTarget | src/app/stepper/stepper.service.ts:243-271 | moving forward, every index below the target follows the skip rule: visited steps are finished (a kept error stays error, a synthetic error without a guard heals), unvisited ones become synthetic errors |
| Stepper.GoToForwardAboveTarget | src/app/stepper/stepper.service.ts:243-271 | moving forward, statuses and flags above the target are untouched |
| Stepper.GoToBackward | src/app/stepper/stepper.service.ts:272-277 | moving backward, only the departing step changes (active to finished) besides the target; flags stay |
| Stepper.GoToTargetStatus | src/app/stepper/stepper.service.ts:279-282 | the target becomes active when absent, pending or active, and keeps a finished or error mark |
| Stepper.GoToMoves | src/app/stepper/stepper.service.ts:236-295 | a successful goTo lands on the target, marks departing step and target visited, and keeps the registrations and data |
| Stepper.SkipAndHeal | src/app/stepper/stepper.service.ts:243-271 | a skipped step becomes a synthetic error, and the next forward pass past it after a visit heals it to finished |
| Stepper.GoToWellFormed | src/app/stepper/stepper.service.ts:201-296 | goTo keeps the invariant |
| Stepper.PrevNextBoundaries | src/app/stepper/stepper.service.ts:193-199 | prev fails on the first step and next fails on the last |
| Stepper.ForwardPass | src/app/stepper/stepper.service.ts:243-271 | the forward loop computes exactly the forward statuses and synthetic flags below the target |
| Stepper.StepperService.Commit | src/app/stepper/stepper.service.ts:236-295 | committing a resolved move leaves exactly the moved engine |
| Stepper.StepperService.GoTo | src/app/stepper/stepper.service.ts:201-296 | the new state and result are exactly the goTo specification, and the invariant holds |
| Stepper.StepperService.Next | src/app/stepper/stepper.service.ts:193-195 | next is goTo(currentIndex + 1) |
| Stepper.StepperService.Prev | src/app/stepper/stepper.service.ts:197-199 | prev is goTo(currentIndex - 1) |
| Stepper.ResetExact | src/app/stepper/stepper.service.ts:298-317 | for an index below the count, reset makes it active and every other index from 0 up to the count pending and leaves only that index visited; for any index it clears the flags, clears data unless kept, clamps the index and keeps the invariant |
| Stepper.ResetOutOfRangeMoves | src/app/stepper/stepper.service.ts:298-317 | an out-of-range index whose clamp moves the current index makes the clamped end (0 or the last step) the only active step and marks both the raw and the clamped index visited |
| Stepper.ResetOutOfRange | src/app/stepper/stepper.service.ts:298-317 | an out-of-range index whose clamp equals the current index leaves no step active and marks the raw index visited |
| Stepper.BuildResetStatuses | src/app/stepper/stepper.service.ts:300-305 | the loop builds exactly the reset statuses |
| Stepper.StepperService.Reset | src/app/stepper/stepper.service.ts:298-317 | the new state is exactly the reset specification, and the invariant holds |
| Stepper.SetStatusOnly | src/app/stepper/stepper.service.ts:336-344 | setStatus overwrites only the resolved index: the given index, or the index of the step that carries the alias. An unknown alias changes nothing |
| Stepper.StepperService.SetStatus | src/app/stepper/stepper.service.ts:336-344 | the new state is exactly the setStatus specification |
| Stepper.DataRoundTrip | src/app/stepper/stepper.service.ts:319-327 | getData after saveData on the same key returns the payload; other slots are untouched; missing keys read as absent |
| Stepper.DataKeys | src/app/stepper/stepper.service.ts:319-323 | an index shares its slot with the alias spelled as its decimal string, and distinct indices never collide |
| Stepper.StepperService.SaveData | src/app/stepper/stepper.service.ts:319-323 | the new state is exactly the saveData specification |
| Stepper.RegisterSpec | src/app/stepper/stepper.service.ts:79-174 | the registration specification; its properties are in RegisterDuplicateAlias, RegisterExistingIndex, RegisterNewIndex, RegisterWellFormed and RegistrationClamps |
| Stepper.UnregisterSpec | src/app/stepper/stepper.service.ts:176-191 | the unregistration specification; its properties are in UnregisterRemoves, UnregisterWellFormed and RegistrationClamps |
| Stepper.GoToSpec | src/app/stepper/stepper.service.ts:201-296 | the goTo specification; its properties are in the GoTo lemmas, SkipAndHeal and PrevNextBoundaries |
| Stepper.ResetSpec | src/app/stepper/stepper.service.ts:298-317 | the reset specification; its properties are in ResetExact, ResetOutOfRange and ResetOutOfRangeMoves |
| Stepper.SetStatusSpec | src/app/stepper/stepper.service.ts:336-344 | the setStatus specification; its properties are in SetStatusOnly |
| Stepper.SaveDataSpec | src/app/stepper/stepper.service.ts:319-323 | the saveData specification; its properties are in DataRoundTrip and DataKeys |
| Stepper.StepperService.GetData | src/app/stepper/stepper.service.ts:325-327 | the stored payload under the key, or absent; equal to `DataAt`, so `DataRoundTrip` applies to it |
| StepperComponent.StatusOf | src/app/stepper/stepper.component.ts:164 | the recorded status, or pending when none is recorded |
| StepperComponent.StepClasses | src/app/stepper/stepper.component.ts:162-173 | the class list is `step` and the status class, followed by the truthy item class and step class in order |
| StepperComponent.TitleClasses | src/app/stepper/stepper.component.ts:175-187 | the title classes are the configured class, then the success class only on finished or the error class only on error |
| StepperComponent.IconClass | src/app/stepper/stepper.component.ts:200-219 | no icon class exactly for pending and active steps |
| StepperComponent.TitleColor | src/app/stepper/stepper.component.ts:189-198 | the title colour; stated per status by ColoursByStatus |
| StepperComponent.IconColor | src/app/stepper/stepper.component.ts:232-241 | the icon colour; stated per status by ColoursByStatus |
| StepperComponent.ShouldShowIcon | src/app/stepper/stepper.component.ts:221-230 | whether the icon shows; stated by ShouldShowIconRules |
| StepperComponent.Tooltip | src/app/stepper/stepper.component.ts:243-252 | the tooltip; stated by TooltipFallbacks |
| StepperComponent.IsFirst | src/app/stepper/stepper.component.ts:258-260 | whether the current step is the first; tied to prev by FirstLastMatchNavigation |
| StepperComponent.IsLast | src/app/stepper/stepper.component.ts:262-264 | whether the current step is the last; tied to next by FirstLastMatchNavigation |
| StepperComponent.KeyTarget | src/app/stepper/stepper.component.ts:142-160 | the target of a key press; stated by KeyTargets and HomeEndInRange |
| StepperComponent.IconClassShape | src/app/stepper/stepper.component.ts:200-219 | finished shows the success class (default check icon), error the error class (default `bi bi-exclamation-circle-fill`) |
| StepperComponent.ShouldShowIconRules | src/app/stepper/stepper.component.ts:221-230 | the icon shows on finished or error unless turned off for that status, and never on pending or active |
| StepperComponent.MissingStatusIsPending | src/app/stepper/stepper.component.ts:162-252 | a step with no recorded status renders exactly as a pending one |
| StepperComponent.ColoursByStatus | src/app/stepper/stepper.component.ts:189-241 | title and icon colours are the success colour on finished, the error colour on error, and none otherwise |
| StepperComponent.TooltipFallbacks | src/app/stepper/stepper.component.ts:243-252 | the status tooltip is preferred, then the step tooltip, then the status's translation key |
| StepperComponent.FirstLastMatchNavigation | src/app/stepper/stepper.component.ts:258-264 | isFirst and isLast hold exactly where prev and next would fail |
| StepperComponent.KeyTargets | src/app/stepper/stepper.component.ts:142-160 | Right/Down target index+1 and Left/Up index-1, Home targets 0 and End count-1; no other key has a target |
| StepperComponent.HomeEndInRange | src/app/stepper/stepper.component.ts:153-159 | with steps present, Home and End target valid indices |
| StepperComponent.StepperComponent.constructor | src/app/stepper/stepper.component.ts:80-89 | the component is bound to its service with the navigable flag |
| StepperComponent.StepperComponent.OnStepClick | src/app/stepper/stepper.component.ts:136-140 | a click is ignored when not navigable, otherwise it is goTo(index) |
| StepperComponent.StepperComponent.OnStepKeydown | src/app/stepper/stepper.component.ts:142-160 | a navigation key prevents the default action and is goTo(target); other keys and non-navigable steppers change nothing |
| StepperComponent.DestroyStep | src/app/stepper/step.component.ts:136-141 | a destroyed step saves its payload under its alias or index, then unregisters |
| StepperComponent.DestroyedStepDataSurvives | src/app/stepper/step.component.ts:136-141 | the payload saved on destroy is still readable after the unregistration |
| FormSteps.DefaultSteps | src/app/FormStepsComponent/form-steps.component.ts:30-52 | five steps, the first keyed "basic" |
| FormSteps.StepWithKey | src/app/FormStepsComponent/form-steps.component.ts:65-67 | the step with the key, absent exactly when no step has it |
| FormSteps.PrevEnabled | src/app/FormStepsComponent/form-steps.component.ts:79-83 | the step back finds; stated by PrevEnabledIsNearest |
| FormSteps.NextEnabled | src/app/FormStepsComponent/form-steps.component.ts:92-93 | the step next finds; stated by NextEnabledIsNearest and UnknownActiveKey |
| FormSteps.PrevEnabledIsNearest | src/app/FormStepsComponent/form-steps.component.ts:78-89 | back finds the nearest enabled step before the active one, or none exactly when none exists |
| FormSteps.NextEnabledIsNearest | src/app/FormStepsComponent/form-steps.component.ts:91-99 | next finds the nearest enabled step after the active one, or none exactly when none exists |
| FormSteps.UnknownActiveKey | src/app/FormStepsComponent/form-steps.component.ts:91-95 | with an unknown active key, next searches from the first step and back from the last-but-one |
| FormSteps.DefaultKeysDistinct | src/app/FormStepsComponent/form-steps.component.ts:30-52 | the default step keys are distinct |
| FormSteps.FormStepsComponent.constructor | src/app/FormStepsComponent/form-steps.component.ts:30-63 | the default steps with the first one active |
| FormSteps.FormStepsComponent.SetSteps | src/app/FormStepsComponent/form-steps.component.ts:30 | the steps input replaces the list |
| FormSteps.FormStepsComponent.SetActiveKeyInput | src/app/FormStepsComponent/form-steps.component.ts:54-56 | a truthy key replaces the active key; an absent or empty one changes nothing |
| FormSteps.FormStepsComponent.ActiveStep | src/app/FormStepsComponent/form-steps.component.ts:65-67 | the step with the active key, or none |
| FormSteps.FormStepsComponent.OnSelect | src/app/FormStepsComponent/form-steps.component.ts:69-76 | an unknown or disabled step is ignored; otherwise it becomes active and its key is emitted |
| FormSteps.FormStepsComponent.OnBack | src/app/FormStepsComponent/form-steps.component.ts:78-89 | moves to and emits the nearest enabled earlier step, or does nothing |
| FormSteps.FormStepsComponent.OnNext | src/app/FormStepsComponent/form-steps.component.ts:91-99 | moves to and emits the nearest enabled later step, or does nothing |
| Collateral.NewGarantia | src/app/FormStepsComponent/contents/collateral/collateral.service.ts:52-61 | every payload field copied, the fresh id, and status "Dados completos" only when the payload has no status key |
| Collateral.Without | src/app/FormStepsComponent/contents/collateral/collateral.service.ts:63-66 | removal keeps exactly the guarantees with other ids, in order |
| Collateral.Total | src/app/FormStepsComponent/contents/collateral/collateral.service.ts:37-39 | the sum of the values; stated by TotalAppend and TotalConcat |
| Collateral.Paged | src/app/FormStepsComponent/contents/collateral/collateral.service.ts:41-50 | the page view; stated by PagedWindow and PagesCover |
| Collateral.CollateralService.TotalValue | src/app/FormStepsComponent/contents/collateral/collateral.service.ts:37-39 | `total$`: the total of the current list; AddGarantia states how it grows |
| Collateral.CollateralService.PagedGarantias | src/app/FormStepsComponent/contents/collateral/collateral.service.ts:41-50 | `pagedGarantias$`: the page view of the current list at the current page and size |
| Collateral.TotalAppend | src/app/FormStepsComponent/contents/collateral/collateral.service.ts:37-39 | adding a guarantee adds its value (NaN or 0 counting as 0, as `g.valor \|\| 0`) to the total |
| Collateral.TotalConcat | src/app/FormStepsComponent/contents/collateral/collateral.service.ts:37-39 | the total of two lists joined is the sum of their totals |
| Collateral.WithoutConcat | src/app/FormStepsComponent/contents/collateral/collateral.service.ts:63-66 | removal distributes over concatenation |
| Collateral.WithoutUnknown | src/app/FormStepsComponent/contents/collateral/collateral.service.ts:63-66 | removing an id no guarantee has changes nothing |
| Collateral.AddThenRemove | src/app/FormStepsComponent/contents/collateral/collateral.service.ts:52-66 | adding with a fresh id and then removing that id restores the list |
| Collateral.PagedWindow | src/app/FormStepsComponent/contents/collateral/collateral.service.ts:41-50 | a page is the window starting at (page-1)*size, cut off at the end, never longer than size |
| Collateral.PagesCover | src/app/FormStepsComponent/contents/collateral/collateral.service.ts:41-50 | pages 1 to n joined are exactly the first n*size guarantees |
| Collateral.CollateralService.constructor | src/app/FormStepsComponent/contents/collateral/collateral.service.ts:25-28 | no guarantees, page 1, page size 12, not loading |
| Collateral.CollateralService.AddGarantia | src/app/FormStepsComponent/contents/collateral/collateral.service.ts:52-61 | appends the new guarantee, and the total grows by its value |
| Collateral.CollateralService.RemoveGarantia | src/app/FormStepsComponent/contents/collateral/collateral.service.ts:63-66 | the list is the old one without that id |
| Collateral.CollateralService.ChangePage | src/app/FormStepsComponent/contents/collateral/collateral.service.ts:68-70 | sets the page |
| Collateral.CollateralService.ChangePageSize | src/app/FormStepsComponent/contents/collateral/collateral.service.ts:72-75 | sets the page size and returns to page 1 |
| Collateral.CollateralService.StartLoading | src/app/FormStepsComponent/contents/collateral/collateral.service.ts:77-79 | sets the loading flag |
| Collateral.CollateralService.StopLoading | src/app/FormStepsComponent/contents/collateral/collateral.service.ts:81-83 | clears the loading flag |
| BasicInfoService.IsLoadingMore | src/app/FormStepsComponent/contents/basic-info/basic-info.service.ts:74-76 | a request loads more exactly when it asks for a page after 1 with the stored filters |
| BasicInfoService.Accumulated | src/app/FormStepsComponent/contents/basic-info/basic-info.service.ts:122-130 | page 1 replaces the buffer, later pages append to it |
| BasicInfoService.LaterPagesAppend | src/app/FormStepsComponent/contents/basic-info/basic-info.service.ts:122-130 | a run of later pages appends all their rows in order |
| BasicInfoService.InfiniteScroll | src/app/FormStepsComponent/contents/basic-info/basic-info.service.ts:122-130 | page 1 followed by later pages leaves exactly all their rows, in order |
| BasicInfoService.BasicInfoService.constructor | src/app/FormStepsComponent/contents/basic-info/basic-info.service.ts:35-59 | empty lists, total 0, page 1, page size 12, no selection, not loading, empty filters |
| BasicInfoService.BasicInfoService.SearchContratos | src/app/FormStepsComponent/contents/basic-info/basic-info.service.ts:65-107 | unless loading more, stores the new filters and empties the buffer; sets loading and returns the request |
| BasicInfoService.BasicInfoService.ApplySuccess | src/app/FormStepsComponent/contents/basic-info/basic-info.service.ts:108-148 | the buffer becomes the accumulated rows, and the published rows, total and page follow the response; loading ends |
| BasicInfoService.BasicInfoService.ApplyError | src/app/FormStepsComponent/contents/basic-info/basic-info.service.ts:149-155 | publishes an empty list and total 0 and ends loading; the buffer is kept |
| BasicInfoService.BasicInfoService.ChangePage | src/app/FormStepsComponent/contents/basic-info/basic-info.service.ts:159-169 | searches again with the stored filters on the given page |
| BasicInfoService.BasicInfoService.ChangePageSize | src/app/FormStepsComponent/contents/basic-info/basic-info.service.ts:171-176 | searches again with the stored filters from page 1 with the new size |
| BasicInfoService.BasicInfoService.LoadNextPage | src/app/FormStepsComponent/contents/basic-info/basic-info.service.ts:186-200 | requests the next page with the stored filters, leaves the filters and the page as they were, and keeps the buffer for any next page after page 1 (incremental loading) |
| BasicInfoService.BasicInfoService.GetCurrentPage | src/app/FormStepsComponent/contents/basic-info/basic-info.service.ts:202-206 | the published page; LoadNextPage and LoadNextPageTwice state that requesting the next page does not move it |
| BasicInfoService.BasicInfoService.SelectContrato | src/app/FormStepsComponent/contents/basic-info/basic-info.service.ts:178-180 | the selection becomes that contract |
| BasicInfoService.BasicInfoService.ClearSelection | src/app/FormStepsComponent/contents/basic-info/basic-info.service.ts:182-184 | the selection becomes empty |
| BasicInfoService.LoadNextPageTwice | src/app/FormStepsComponent/contents/basic-info/basic-info.service.ts:186-200 | two next-page requests before any answer both ask for the same page |
| BasicInfoService.ErrorKeepsBuffer | src/app/FormStepsComponent/contents/basic-info/basic-info.service.ts:149-155 | after an error, the next later-page answer still appends to the rows accumulated before it |
| BasicInfoComponent.FirstNonEmpty | src/app/FormStepsComponent/contents/basic-info/basic-info.component.ts:199-204 | the first non-empty candidate, or the fallback when all are empty |
| BasicInfoComponent.CeilDiv | src/app/FormStepsComponent/contents/basic-info/basic-info.component.ts:355 | the least r with a <= r*b, as `Math.ceil(a / b)` |
| BasicInfoComponent.FirstNonEmptyTrimmed | src/app/FormStepsComponent/contents/basic-info/basic-info.component.ts:199-204 | picking among trimmed candidates with a trimmed fallback yields a trimmed string |
| BasicInfoComponent.MapDealRasToContrato | src/app/FormStepsComponent/contents/basic-info/basic-info.component.ts:198-219 | the row shown for a fetched Deal RAS; stated column by column by ChaveRules, OperacaoRules and RowIdRules |
| BasicInfoComponent.ChaveRules | src/app/FormStepsComponent/contents/basic-info/basic-info.component.ts:199-204 | the key is the first non-blank of new contract, base contract, account and Deal RAS id (trimmed), else "-", and is never empty |
| BasicInfoComponent.OperacaoRules | src/app/FormStepsComponent/contents/basic-info/basic-info.component.ts:206-210 | the operation is the first non-blank of product, use of proceeds and book (trimmed), else "-" |
| BasicInfoComponent.RowIdRules | src/app/FormStepsComponent/contents/basic-info/basic-info.component.ts:212-218 | the row id is "ras-" followed by the trimmed Deal RAS id, or "ras-unk" when that is blank; the link column is "Não vinculado" and the action column "Excluir" |
| BasicInfoComponent.NextPageBound | src/app/FormStepsComponent/contents/basic-info/basic-info.component.ts:349-362 | a page within ceil(total/12) starts inside the total |
| BasicInfoComponent.BasicInfoComponent.constructor | src/app/FormStepsComponent/contents/basic-info/basic-info.component.ts:44-61 | empty fields, no locks, nothing loading |
| BasicInfoComponent.BasicInfoComponent.OnBuscar | src/app/FormStepsComponent/contents/basic-info/basic-info.component.ts:154-158 | searches the typed text from page 1 unless a lock is set, in which case nothing happens; a search stores the typed filters, empties the buffer and sets loading, and touches nothing else of the service |
| BasicInfoComponent.BasicInfoComponent.ClearSearch | src/app/FormStepsComponent/contents/basic-info/basic-info.component.ts:160-166 | empties the filters and searches from page 1 unless a lock is set; the service stores the empty filters, empties the buffer and sets loading, and nothing else of it changes |
| BasicInfoComponent.BasicInfoComponent.ToggleShowRAS | src/app/FormStepsComponent/contents/basic-info/basic-info.component.ts:168-176 | records the switch; switching off drops the RAS lock, its row and the loading flag, switching on leaves the lock, the row, the status and the loading flag alone |
| BasicInfoComponent.BasicInfoComponent.ApplyRAS | src/app/FormStepsComponent/contents/basic-info/basic-info.component.ts:231-248 | a blank id asks for one, a manual lock opens the confirmation (both leave the loading flag alone), otherwise the trimmed id is fetched |
| BasicInfoComponent.BasicInfoComponent.ConfirmApplyRAS | src/app/FormStepsComponent/contents/basic-info/basic-info.component.ts:250-264 | closes the confirmation; a blank id asks for one and leaves the manual lock, row, selection and loading flag alone, otherwise drops the manual selection and fetches |
| BasicInfoComponent.BasicInfoComponent.CancelApplyRAS | src/app/FormStepsComponent/contents/basic-info/basic-info.component.ts:266-268 | closes the confirmation |
| BasicInfoComponent.BasicInfoComponent.PerformApplyRAS | src/app/FormStepsComponent/contents/basic-info/basic-info.component.ts:270-272 | shows "Carregando..." and sets the loading flag |
| BasicInfoComponent.BasicInfoComponent.CompleteApplyRAS | src/app/FormStepsComponent/contents/basic-info/basic-info.component.ts:273-291 | ends loading; success sets the RAS lock with the mapped row and drops the manual selection, failure shows "Erro ao buscar" and keeps the locks, the rows and the service selection |
| BasicInfoComponent.BasicInfoComponent.LockRas | src/app/FormStepsComponent/contents/basic-info/basic-info.component.ts:277-286 | the RAS lock takes over from any manual selection, with exactly the mapped row and status "OK" |
| BasicInfoComponent.BasicInfoComponent.OnChangePage | src/app/FormStepsComponent/contents/basic-info/basic-info.component.ts:295-315 | a page equal to the last processed one is ignored and leaves that mark and the service alone, one equal to the current page is ignored; otherwise it is requested with the stored filters, which stay, the buffer is kept for a page after 1 and emptied otherwise, and loading is set; nothing else of the service changes |
| BasicInfoComponent.BasicInfoComponent.OnChangePageSize | src/app/FormStepsComponent/contents/basic-info/basic-info.component.ts:317-321 | unless locked, searches from page 1 with the new size and the stored filters, emptying the buffer and setting loading; nothing else of the service changes |
| BasicInfoComponent.BasicInfoComponent.OnLoadMore | src/app/FormStepsComponent/contents/basic-info/basic-info.component.ts:323-327 | unless locked, requests the next page with the stored filters, keeping the buffer after page 1 and setting loading; nothing else of the service changes |
| BasicInfoComponent.BasicInfoComponent.OnSelect | src/app/FormStepsComponent/contents/basic-info/basic-info.component.ts:329-335 | blocked only by the RAS lock; otherwise sets the manual lock on exactly that row and selects it |
| BasicInfoComponent.BasicInfoComponent.OnPrevPage | src/app/FormStepsComponent/contents/basic-info/basic-info.component.ts:337-347 | unless locked or on page 1, requests the previous page with the stored filters; the buffer is kept when that page is after 1 and emptied for page 1, loading is set, and nothing else of the service changes |
| BasicInfoComponent.BasicInfoComponent.OnNextPage | src/app/FormStepsComponent/contents/basic-info/basic-info.component.ts:349-362 | unless locked or past ceil(total/12), requests the next page with the stored filters, keeping the buffer after page 1 and setting loading; nothing else of the service changes |
| BasicInfoComponent.BasicInfoComponent.OnExcluirRAS | src/app/FormStepsComponent/contents/basic-info/basic-info.component.ts:364-366 | drops the RAS lock and its row |
| BasicInfoComponent.BasicInfoComponent.OnExcluirSelecionado | src/app/FormStepsComponent/contents/basic-info/basic-info.component.ts:368-372 | drops the manual lock, its row and the service's selection |
| BasicInfoComponent.BasicInfoComponent.ResetRASLock | src/app/FormStepsComponent/contents/basic-info/basic-info.component.ts:374-378 | drops the RAS lock, its row and the RAS status |

Every class keeps an invariant `Valid()` through its methods. For the basic-info component, the
invariant says the manual lock and the RAS lock exclude each other. A manual lock holds exactly
one row, which is also the service's selection; a RAS lock holds exactly one row.

## Left out

- **Reactive scheduling.** Angular's effect batching and scheduling are not modelled. The effect
  is applied synchronously at the end of each operation, and only when the current index or the
  count changed.
- **Guard side effects.** `goTo` awaits the guard. A guard that itself calls into the service
  while being awaited is not modelled; the guard's result is a parameter.
- **`canEnter`.** The registration stores it, but `goTo` never consults it, so only its presence
  is kept.
- **Aliases and object prototypes.** An alias that names a property inherited from
  `Object.prototype` (such as `"constructor"`) is not modelled. The alias map and the data store
  are treated as empty dictionaries.
- **Opaque metadata.** `componentType`, `lazyLoader`, `contentTemplate`, `contentHtml` and other
  rendering references are opaque to the engine, so they are not part of `StepMeta`.
- **Flags and logging.** The `linear` and `debug` flags are never read by the operations
  (stepper.service.ts:36-48). `logData` writes to the console, and `getSteps` returns the list
  unchanged. The console logging throughout the contract search service
  (basic-info.service.ts:66-204) is left out too: it has no effect on state or results.
- **Stepper view.** Progress percentage, grid-column layout and content initialisation
  (stepper.component.ts:62-123) are rendering.
- **Numbers.** Index keys use `String(n)` for integers. The exponent notation JavaScript uses for
  very large numbers and non-integer indices are not modelled.
- **Collateral.Total.** It sums with exact `real` arithmetic, not IEEE-754 doubles, so rounding is
  not modelled. NaN counts as 0, as `g.valor \|\| 0` does. A missing `valor` is not modelled, because
  the `Garantia` type requires it.
- **Collateral ids.** The id `crypto.randomUUID()` produces is a caller-supplied `freshId`.
  `importarArquivo` (a `setTimeout`-driven loading flag) is not modelled beyond
  `StartLoading`/`StopLoading`.
- **HTTP and mocks.** The HTTP client, the mock back-end interceptor and the Deal RAS service are
  not modelled. A request is returned as a value, and its answer is a parameter of the completion
  handler.
- **Form patching.** `formatIsoToInput` and `applyRasToForm` (basic-info.component.ts:178-196,
  221-229) only patch date fields of the reactive form, which is not part of this model.
- **DOM events.** Scroll handling and the IntersectionObserver that trigger loading more, focus
  movement after keyboard navigation, and the checkbox event object are not modelled. The
  checkbox becomes its `checked` value.
- **BasicInfoComponent.MapDealRasToContrato.** A null response is taken as one with every field
  absent, and the Deal RAS box is never null (it is bound to a text input).
- **BasicInfoComponent.BasicInfoComponent.OnNextPage.** The component's `totalCount` is a
  subscription that mirrors the service's total (basic-info.component.ts:79-81). It is read
  directly as the service's total.
- **BasicInfoComponent.BasicInfoComponent.OnChangePage.** `Number(page)` is not modelled: the page
  arrives as an integer.
- **BasicInfoService.BasicInfoService.GetCurrentPage.** It returns the page field and has no
  contract beyond that.
- **Concurrency.** Overlapping requests whose answers arrive out of order are not modelled beyond
  the separate begin and apply steps.

=== FILE: basic_info_component.dfy ===
/**
 * The basic-information step's search panel (`BasicInfoComponent`): a contract is chosen either by
 * picking a row of the search (the manual lock) or by fetching a Deal RAS (the RAS lock), never
 * both; the paging handlers drive the search service. A Deal RAS fetch is split into its start
 * (returning the id it fetches) and its completion, whose result is an input.
 */
module BasicInfoComponent {
  import opened Wrappers
  import opened JsCore
  import opened BasicInfoService

  /** The Deal RAS fields the mapping reads; each may be missing or null. */
  datatype DealRas = DealRas(
    newContract: Option<string>,
    baseContract: Option<string>,
    account: Option<string>,
    productCanonical: Option<string>,
    useOfProceedsCanonical: Option<string>,
    book: Option<string>)

  const StatusAskForId: string := "Informe o Deal RAS"
  const StatusLoading: string := "Carregando..."
  const StatusOk: string := "OK"
  const StatusFetchError: string := "Erro ao buscar"
  const StatusNone: string := "-"
  /** The page size the component's own searches and its page count use. */
  const PanelPageSize: int := 12

  /** `x?.trim()` as a condition value: missing reads like the empty string. */
  function TrimField(x: Option<string>): string {
    if x.Some? then Trim(x.value) else ""
  }

  /** `a || b || ... || fallback` over strings. */
  function FirstNonEmpty(cands: seq<string>, fallback: string): (r: string)
    ensures (forall k :: 0 <= k < |cands| ==> cands[k] == "") ==> r == fallback
    ensures (exists k :: 0 <= k < |cands| && cands[k] != "") ==>
            exists k :: 0 <= k < |cands| && r == cands[k] && r != "" && forall j :: 0 <= j < k ==> cands[j] == ""
  {
    if cands == [] then fallback
    else if cands[0] != "" then cands[0]
    else
      var r := FirstNonEmpty(cands[1..], fallback);
      assert forall k :: 1 <= k < |cands| ==> cands[k] == cands[1..][k - 1];
      r
  }

  /** The contract row shown for a fetched Deal RAS; `dealRAS` is the id in the input box when the answer arrives. */
  function MapDealRasToContrato(res: DealRas, dealRAS: string): Contrato {
    var chave := FirstNonEmpty([TrimField(res.newContract), TrimField(res.baseContract),
                                TrimField(res.account), Trim(dealRAS)], StatusNone);
    var operacao := FirstNonEmpty([TrimField(res.productCanonical), TrimField(res.useOfProceedsCanonical),
                                   TrimField(res.book)], StatusNone);
    var idPart := if Trim(dealRAS) != "" then Trim(dealRAS) else "unk";
    Contrato("ras-" + idPart, chave, operacao, "Não vinculado", "Excluir")
  }

  /** `Math.ceil(total / 12)` for an integer total. */
  function CeilDiv(a: int, b: int): (r: int)
    requires b > 0
    ensures (r - 1) * b < a <= r * b
  {
    -((-a) / b)
  }

  // ---------------------------------------------------------------- lemmas

  /** No white space at either end. */
  predicate Trimmed(s: string) {
    s == "" || (!IsWhiteSpace(s[0]) && !IsWhiteSpace(s[|s| - 1]))
  }

  lemma TrimFieldTrimmed(x: Option<string>)
    ensures Trimmed(TrimField(x))
  {
    if x.Some? {
      TrimEdges(x.value);
    }
  }

  /** Choosing among trimmed strings with a trimmed, non-empty fallback gives a trimmed, non-empty string. */
  lemma {:induction false} FirstNonEmptyTrimmed(cands: seq<string>, fallback: string)
    requires forall k :: 0 <= k < |cands| ==> Trimmed(cands[k])
    requires Trimmed(fallback) && fallback != ""
    ensures var r := FirstNonEmpty(cands, fallback); Trimmed(r) && r != ""
  {
    if cands != [] && cands[0] == "" {
      FirstNonEmptyTrimmed(cands[1..], fallback);
    }
  }

  /** The key is the first non-blank trimmed candidate, '-' only when all are blank; it is never empty and never padded. */
  lemma ChaveRules(res: DealRas, dealRAS: string)
    ensures var c := MapDealRasToContrato(res, dealRAS).chave;
            c != "" && Trimmed(c) &&
            ((TrimField(res.newContract) == "" && TrimField(res.baseContract) == "" &&
              TrimField(res.account) == "" && Trim(dealRAS) == "") ==> c == StatusNone) &&
            (TrimField(res.newContract) != "" ==> c == TrimField(res.newContract)) &&
            (TrimField(res.newContract) == "" && TrimField(res.baseContract) != "" ==> c == TrimField(res.baseContract))
  {
    var cands := [TrimField(res.newContract), TrimField(res.baseContract), TrimField(res.account), Trim(dealRAS)];
    TrimFieldTrimmed(res.newContract);
    TrimFieldTrimmed(res.baseContract);
    TrimFieldTrimmed(res.account);
    TrimEdges(dealRAS);
    FirstNonEmptyTrimmed(cands, StatusNone);
  }

  /** The operation is the first non-blank of product, use of proceeds and book, else '-'. */
  lemma OperacaoRules(res: DealRas, dealRAS: string)
    ensures var o := MapDealRasToContrato(res, dealRAS).operacao;
            o != "" &&
            ((TrimField(res.productCanonical) == "" && TrimField(res.useOfProceedsCanonical) == "" &&
              TrimField(res.book) == "") ==> o == StatusNone) &&
            (TrimField(res.productCanonical) != "" ==> o == TrimField(res.productCanonical))
  {
  }

  /** The row id is 'ras-' and the trimmed id, or 'ras-unk' for a blank one; the last two columns are fixed. */
  lemma RowIdRules(res: DealRas, dealRAS: string)
    ensures var id := MapDealRasToContrato(res, dealRAS).id;
            |id| > 4 && id[..4] == "ras-" &&
            (id == "ras-unk" <==> Trim(dealRAS) == "" || Trim(dealRAS) == "unk") &&
            (Trim(dealRAS) != "" ==> id == "ras-" + Trim(dealRAS))
    ensures MapDealRasToContrato(res, dealRAS).vinculoTrade == "Não vinculado"
    ensures MapDealRasToContrato(res, dealRAS).acao == "Excluir"
  {
    var id := MapDealRasToContrato(res, dealRAS).id;
    if Trim(dealRAS) != "" {
      assert id[4..] == Trim(dealRAS);
    }
  }

  /** onNextPage's bound: page+1 is allowed exactly when rows exist beyond the first page*12. */
  lemma NextPageBound(page: int, total: int)
    ensures page + 1 <= CeilDiv(total, PanelPageSize) <==> page * PanelPageSize < total
  {
    var m := CeilDiv(total, PanelPageSize);
    if page + 1 <= m {
      assert (page + 1) * 12 <= m * 12 by {
        MulMonotone(page + 1, m, 12);
      }
    } else {
      assert m <= page;
      MulMonotone(m, page, 12);
    }
  }

  lemma MulMonotone(a: int, b: int, c: int)
    requires a <= b && c >= 0
    ensures a * c <= b * c
  {
  }

  // ---------------------------------------------------------------- the component

  class BasicInfoComponent {
    const svc: BasicInfoService
    var dealRAS: string
    var dealRASStatus: string
    var searchText: string
    var onlyNotLinked: bool
    var rasLocked: bool
    var manualLocked: bool
    var manualContratos: seq<Contrato>
    var rasContratos: seq<Contrato>
    var showConfirmRas: bool
    var rasLoading: bool
    var showras: bool
    var lastProcessedPage: int

    /**
     * The two locks exclude each other; the manual lock holds exactly the selected row, the RAS
     * lock exactly the fetched row, and each list is empty when its lock is off.
     */
    ghost predicate Valid()
      reads this, svc
    {
      !(rasLocked && manualLocked) &&
      (manualLocked ==> |manualContratos| == 1 && svc.selected == Some(manualContratos[0])) &&
      (!manualLocked ==> manualContratos == []) &&
      (rasLocked ==> |rasContratos| == 1) &&
      (!rasLocked ==> rasContratos == [])
    }

    predicate Locked()
      reads this
    {
      rasLocked || manualLocked
    }

    constructor (svc: BasicInfoService)
      ensures this.svc == svc && Valid()
      ensures dealRAS == "" && dealRASStatus == StatusNone && searchText == "" && !onlyNotLinked
      ensures !rasLocked && !manualLocked && !showConfirmRas && !rasLoading && !showras && lastProcessedPage == 0
    {
      this.svc := svc;
      dealRAS := "";
      dealRASStatus := StatusNone;
      searchText := "";
      onlyNotLinked := false;
      rasLocked := false;
      manualLocked := false;
      manualContratos := [];
      rasContratos := [];
      showConfirmRas := false;
      rasLoading := false;
      showras := false;
      lastProcessedPage := 0;
    }

    /** Search with the typed text from page 1, unless a lock is set. */
    method OnBuscar() returns (req: Option<Request>)
      requires Valid()
      modifies svc`filtro, svc`apenasNaoVinculados, svc`currentContratos, svc`loading
      ensures Valid()
      ensures old(Locked()) ==> req.None? && unchanged(svc)
      ensures !old(Locked()) ==> req == Some(Request(searchText, onlyNotLinked, 1, PanelPageSize)) &&
                                 svc.filtro == searchText && svc.apenasNaoVinculados == onlyNotLinked &&
                                 svc.currentContratos == [] && svc.loading
    {
      if rasLocked || manualLocked {
        return None;
      }
      var r := svc.SearchContratos(searchText, onlyNotLinked, 1, PanelPageSize);
      req := Some(r);
    }

    /** Empty the filters and search again from page 1, unless a lock is set. */
    method ClearSearch() returns (req: Option<Request>)
      requires Valid()
      modifies this`searchText, this`onlyNotLinked, svc`filtro, svc`apenasNaoVinculados, svc`currentContratos, svc`loading
      ensures Valid()
      ensures old(Locked()) ==> req.None? && unchanged(svc) && unchanged(this)
      ensures !old(Locked()) ==> searchText == "" && !onlyNotLinked &&
                                 req == Some(Request("", false, 1, PanelPageSize)) &&
                                 svc.filtro == "" && !svc.apenasNaoVinculados && svc.currentContratos == [] && svc.loading
    {
      if rasLocked || manualLocked {
        return None;
      }
      searchText := "";
      onlyNotLinked := false;
      var r := svc.SearchContratos(searchText, onlyNotLinked, 1, PanelPageSize);
      req := Some(r);
    }

    /** The RAS switch; `checked` is the checkbox state (false without a target). Switching off drops the RAS lock. */
    method ToggleShowRAS(checked: bool)
      requires Valid()
      modifies this`showras, this`rasLocked, this`rasContratos, this`dealRASStatus, this`rasLoading
      ensures Valid()
      ensures showras == checked
      ensures !checked ==> !rasLocked && rasContratos == [] && dealRASStatus == StatusNone && !rasLoading
      ensures checked ==> rasLocked == old(rasLocked) && rasLoading == old(rasLoading) &&
                          rasContratos == old(rasContratos) && dealRASStatus == old(dealRASStatus)
    {
      showras := checked;
      if !showras {
        ResetRASLock();
        rasLoading := false;
      }
    }

    /** Apply the Deal RAS in the box: a blank id asks for one, a manual lock asks for confirmation, otherwise fetch. */
    method ApplyRAS() returns (fetch: Option<string>)
      requires Valid()
      modifies this`dealRASStatus, this`showConfirmRas, this`rasLoading
      ensures Valid()
      ensures var id := Trim(dealRAS);
              (id == "" ==> fetch.None? && dealRASStatus == StatusAskForId && showConfirmRas == old(showConfirmRas) &&
                            rasLoading == old(rasLoading)) &&
              (id != "" && manualLocked ==> fetch.None? && showConfirmRas && dealRASStatus == old(dealRASStatus) &&
                                            rasLoading == old(rasLoading)) &&
              (id != "" && !manualLocked ==> fetch == Some(id) && dealRASStatus == StatusLoading && rasLoading)
    {
      var id := Trim(dealRAS);
      if id == "" {
        dealRASStatus := StatusAskForId;
        return None;
      }
      if manualLocked {
        showConfirmRas := true;
        return None;
      }
      PerformApplyRAS(id);
      fetch := Some(id);
    }

    /** Confirmation accepted: drop the manual selection and fetch, or ask for an id when the box is blank. */
    method ConfirmApplyRAS() returns (fetch: Option<string>)
      requires Valid()
      modifies this`dealRASStatus, this`showConfirmRas, this`rasLoading, this`manualLocked, this`manualContratos, svc`selected
      ensures Valid()
      ensures !showConfirmRas
      ensures var id := Trim(dealRAS);
              (id == "" ==> fetch.None? && dealRASStatus == StatusAskForId && manualLocked == old(manualLocked) &&
                            manualContratos == old(manualContratos) && svc.selected == old(svc.selected) &&
                            rasLoading == old(rasLoading)) &&
              (id != "" ==> fetch == Some(id) && !manualLocked && manualContratos == [] && svc.selected.None? &&
                            dealRASStatus == StatusLoading && rasLoading)
    {
      var id := Trim(dealRAS);
      if id == "" {
        dealRASStatus := StatusAskForId;
        showConfirmRas := false;
        return None;
      }
      OnExcluirSelecionado();
      showConfirmRas := false;
      PerformApplyRAS(id);
      fetch := Some(id);
    }

    method CancelApplyRAS()
      modifies this`showConfirmRas
      ensures !showConfirmRas
    {
      showConfirmRas := false;
    }

    /** The start of a Deal RAS fetch. */
    method PerformApplyRAS(id: string)
      modifies this`dealRASStatus, this`rasLoading
      ensures dealRASStatus == StatusLoading && rasLoading
    {
      dealRASStatus := StatusLoading;
      rasLoading := true;
    }

    /** The end of a Deal RAS fetch: `result` is the answer, or None when the fetch failed. */
    method CompleteApplyRAS(result: Option<DealRas>)
      requires Valid()
      modifies this`rasLocked, this`manualLocked, this`manualContratos, this`rasContratos, this`dealRASStatus, this`rasLoading, svc`selected
      ensures Valid()
      ensures !rasLoading
      ensures result.Some? ==> rasLocked && !manualLocked && manualContratos == [] && svc.selected.None? &&
                               rasContratos == [MapDealRasToContrato(result.value, dealRAS)] && dealRASStatus == StatusOk
      ensures result.None? ==> dealRASStatus == StatusFetchError && rasLocked == old(rasLocked) &&
                               manualLocked == old(manualLocked) && rasContratos == old(rasContratos) &&
                               manualContratos == old(manualContratos) && svc.selected == old(svc.selected)
    {
      if result.Some? {
        LockRas(result.value);
      } else {
        dealRASStatus := StatusFetchError;
      }
      rasLoading := false;
    }

    /** The success handler of a Deal RAS fetch: the RAS lock takes over from any manual selection. */
    method LockRas(res: DealRas)
      requires Valid()
      modifies this`rasLocked, this`manualLocked, this`manualContratos, this`rasContratos, this`dealRASStatus, svc`selected
      ensures Valid()
      ensures rasLocked && !manualLocked && manualContratos == [] && svc.selected.None?
      ensures rasContratos == [MapDealRasToContrato(res, dealRAS)] && dealRASStatus == StatusOk
    {
      rasLocked := true;
      manualLocked := false;
      manualContratos := [];
      svc.ClearSelection();
      rasContratos := [MapDealRasToContrato(res, dealRAS)];
      dealRASStatus := StatusOk;
    }

    /** A page chosen in the pager; it is not blocked by the locks. A page equal to the last processed one is ignored. */
    method OnChangePage(p: int) returns (req: Option<Request>)
      requires Valid()
      modifies this`lastProcessedPage, svc`filtro, svc`apenasNaoVinculados, svc`currentContratos, svc`loading
      ensures Valid()
      ensures old(lastProcessedPage) == p ==> req.None? && unchanged(svc) && lastProcessedPage == old(lastProcessedPage)
      ensures old(lastProcessedPage) != p ==> lastProcessedPage == p
      ensures old(lastProcessedPage) != p && p == old(svc.page) ==> req.None? && unchanged(svc)
      ensures old(lastProcessedPage) != p && p != old(svc.page) ==>
                req == Some(Request(old(svc.filtro), old(svc.apenasNaoVinculados), p, old(svc.pageSize))) &&
                svc.filtro == old(svc.filtro) && svc.apenasNaoVinculados == old(svc.apenasNaoVinculados) &&
                svc.currentContratos == (if p > 1 then old(svc.currentContratos) else []) && svc.loading
    {
      if lastProcessedPage == p {
        return None;
      }
      var currentPage := svc.page;
      if p > currentPage {
        lastProcessedPage := p;
        var r := svc.ChangePage(p);
        req := Some(r);
      } else if p < currentPage {
        lastProcessedPage := p;
        var r := svc.ChangePage(p);
        req := Some(r);
      } else {
        lastProcessedPage := p;
        req := None;
      }
    }

    method OnChangePageSize(size: int) returns (req: Option<Request>)
      requires Valid()
      modifies svc`filtro, svc`apenasNaoVinculados, svc`currentContratos, svc`loading
      ensures Valid()
      ensures old(Locked()) ==> req.None? && unchanged(svc)
      ensures !old(Locked()) ==> req == Some(Request(old(svc.filtro), old(svc.apenasNaoVinculados), 1, size)) &&
                                 svc.filtro == old(svc.filtro) && svc.apenasNaoVinculados == old(svc.apenasNaoVinculados) &&
                                 svc.currentContratos == [] && svc.loading
    {
      if rasLocked || manualLocked {
        return None;
      }
      var r := svc.ChangePageSize(size);
      req := Some(r);
    }

    method OnLoadMore() returns (req: Option<Request>)
      requires Valid()
      modifies svc`filtro, svc`apenasNaoVinculados, svc`currentContratos, svc`loading
      ensures Valid()
      ensures old(Locked()) ==> req.None? && unchanged(svc)
      ensures !old(Locked()) ==> req == Some(Request(old(svc.filtro), old(svc.apenasNaoVinculados), old(svc.page) + 1, old(svc.pageSize))) &&
                                 svc.filtro == old(svc.filtro) && svc.apenasNaoVinculados == old(svc.apenasNaoVinculados) &&
                                 svc.currentContratos == (if old(svc.page) >= 1 then old(svc.currentContratos) else []) && svc.loading
    {
      if rasLocked || manualLocked {
        return None;
      }
      var r := svc.LoadNextPage();
      req := Some(r);
    }

    /** Pick a search row: blocked only by the RAS lock; sets the manual lock on exactly that row. */
    method OnSelect(row: Contrato)
      requires Valid()
      modifies this`manualLocked, this`manualContratos, svc`selected
      ensures Valid()
      ensures old(rasLocked) ==> unchanged(this) && unchanged(svc)
      ensures !old(rasLocked) ==> manualLocked && manualContratos == [row] && svc.selected == Some(row)
    {
      if rasLocked {
        return;
      }
      svc.SelectContrato(row);
      manualLocked := true;
      manualContratos := [row];
    }

    method OnPrevPage() returns (req: Option<Request>)
      requires Valid()
      modifies svc`filtro, svc`apenasNaoVinculados, svc`currentContratos, svc`loading
      ensures Valid()
      ensures old(Locked()) || old(svc.page) <= 1 ==> req.None? && unchanged(svc)
      ensures !old(Locked()) && old(svc.page) > 1 ==>
                req == Some(Request(old(svc.filtro), old(svc.apenasNaoVinculados), old(svc.page) - 1, old(svc.pageSize))) &&
                svc.filtro == old(svc.filtro) && svc.apenasNaoVinculados == old(svc.apenasNaoVinculados) &&
                svc.currentContratos == (if old(svc.page) > 2 then old(svc.currentContratos) else []) && svc.loading
    {
      if rasLocked || manualLocked {
        return None;
      }
      var currentPage := svc.page;
      req := None;
      if currentPage > 1 {
        var r := svc.ChangePage(currentPage - 1);
        req := Some(r);
      }
    }

    /** Request the next page only while it is within ceil(total / 12); the total is the service's published total. */
    method OnNextPage() returns (req: Option<Request>)
      requires Valid()
      modifies svc`filtro, svc`apenasNaoVinculados, svc`currentContratos, svc`loading
      ensures Valid()
      ensures old(Locked()) || old(svc.page) + 1 > CeilDiv(old(svc.total), PanelPageSize) ==> req.None? && unchanged(svc)
      ensures !old(Locked()) && old(svc.page) + 1 <= CeilDiv(old(svc.total), PanelPageSize) ==>
                req == Some(Request(old(svc.filtro), old(svc.apenasNaoVinculados), old(svc.page) + 1, old(svc.pageSize))) &&
                svc.filtro == old(svc.filtro) && svc.apenasNaoVinculados == old(svc.apenasNaoVinculados) &&
                svc.currentContratos == (if old(svc.page) >= 1 then old(svc.currentContratos) else []) && svc.loading
    {
      if rasLocked || manualLocked {
        return None;
      }
      var nextPage := svc.page + 1;
      var maxPages := CeilDiv(svc.total, PanelPageSize);
      req := None;
      if nextPage <= maxPages {
        var r := svc.ChangePage(nextPage);
        req := Some(r);
      }
    }

    method OnExcluirRAS()
      requires Valid()
      modifies this`rasLocked, this`rasContratos, this`dealRASStatus
      ensures Valid()
      ensures !rasLocked && rasContratos == [] && dealRASStatus == StatusNone
    {
      ResetRASLock();
    }

    /** Drop the manual selection. */
    method OnExcluirSelecionado()
      requires Valid()
      modifies this`manualLocked, this`manualContratos, svc`selected
      ensures Valid()
      ensures !manualLocked && manualContratos == [] && svc.selected.None?
    {
      manualLocked := false;
      manualContratos := [];
      svc.ClearSelection();
    }

    method ResetRASLock()
      requires Valid()
      modifies this`rasLocked, this`rasContratos, this`dealRASStatus
      ensures Valid()
      ensures !rasLocked && rasContratos == [] && dealRASStatus == StatusNone
    {
      rasLocked := false;
      rasContratos := [];
      dealRASStatus := StatusNone;
    }
  }
}

=== FILE: basic_info_service.dfy ===
/**
 * The contract search of the basic-information step (`BasicInfoService`): a paged search whose
 * pages accumulate into one buffer for infinite scrolling. A search is split into the request it
 * starts (`SearchContratos`, returning what it asks the server for) and the handler that runs when
 * the answer arrives (`ApplySuccess` with the response, or `ApplyError`).
 */
module BasicInfoService {
  import opened Wrappers

  datatype Contrato = Contrato(id: string, chave: string, operacao: string, vinculoTrade: string, acao: string)

  /** The query parameters of one request; the response handler remembers its page and page size. */
  datatype Request = Request(filtro: string, apenasNaoVinculados: bool, page: int, pageSize: int)

  /** What the server answers; its own page fields are not read. */
  datatype ContratosResponse = ContratosResponse(data: seq<Contrato>, total: int)

  /** A later page of the search already stored: the buffer is kept and the filters stay. */
  function IsLoadingMore(storedFiltro: string, storedApenas: bool, r: Request): (b: bool)
    ensures b ==> r.page >= 2
    ensures r.page == 1 ==> !b
  {
    r.page > 1 && storedFiltro == r.filtro && storedApenas == r.apenasNaoVinculados
  }

  /** What the success handler makes of the buffer: page 1 replaces it, any other page appends. */
  function Accumulated(buffer: seq<Contrato>, page: int, data: seq<Contrato>): (r: seq<Contrato>)
    ensures page == 1 ==> r == data
    ensures page != 1 ==> |r| == |buffer| + |data| && r[..|buffer|] == buffer && r[|buffer|..] == data
  {
    if page == 1 then data else buffer + data
  }

  /** The buffer after the responses `datas` have arrived in order for pages first, first+1, ... */
  function AccumulateRun(buffer: seq<Contrato>, datas: seq<seq<Contrato>>, first: int): seq<Contrato>
    decreases |datas|
  {
    if datas == [] then buffer else AccumulateRun(Accumulated(buffer, first, datas[0]), datas[1..], first + 1)
  }

  function Flatten(datas: seq<seq<Contrato>>): seq<Contrato> {
    if datas == [] then [] else datas[0] + Flatten(datas[1..])
  }

  /** Responses for pages ≥ 2 only ever append, in arrival order. */
  lemma {:induction false} LaterPagesAppend(buffer: seq<Contrato>, datas: seq<seq<Contrato>>, first: int)
    requires first >= 2
    ensures AccumulateRun(buffer, datas, first) == buffer + Flatten(datas)
    decreases |datas|
  {
    if datas != [] {
      LaterPagesAppend(buffer + datas[0], datas[1..], first + 1);
      assert buffer + datas[0] + Flatten(datas[1..]) == buffer + (datas[0] + Flatten(datas[1..]));
    }
  }

  /** Scrolling through pages 1, 2, ..., n in order leaves exactly their rows, in page order, whatever was buffered before. */
  lemma InfiniteScroll(buffer: seq<Contrato>, datas: seq<seq<Contrato>>)
    requires datas != []
    ensures AccumulateRun(buffer, datas, 1) == Flatten(datas)
  {
    LaterPagesAppend(datas[0], datas[1..], 2);
  }

  class BasicInfoService {
    /** The published list (`contratos$`). */
    var contratos: seq<Contrato>
    var total: int
    /** The last page whose response arrived (`page$`). */
    var page: int
    var pageSize: int
    var selected: Option<Contrato>
    var loading: bool
    var filtro: string
    var apenasNaoVinculados: bool
    /** The accumulation buffer for infinite scrolling. */
    var currentContratos: seq<Contrato>

    constructor ()
      ensures contratos == [] && total == 0 && page == 1 && pageSize == 12 && selected.None? && !loading
      ensures filtro == "" && !apenasNaoVinculados && currentContratos == []
    {
      contratos := [];
      total := 0;
      page := 1;
      pageSize := 12;
      selected := None;
      loading := false;
      filtro := "";
      apenasNaoVinculados := false;
      currentContratos := [];
    }

    /** Start a search; a first page or changed filters store the filters and empty the buffer first. */
    method SearchContratos(f: string, apenas: bool, p: int, size: int) returns (req: Request)
      modifies this`filtro, this`apenasNaoVinculados, this`currentContratos, this`loading
      ensures req == Request(f, apenas, p, size)
      ensures loading
      ensures if IsLoadingMore(old(filtro), old(apenasNaoVinculados), req)
              then filtro == old(filtro) && apenasNaoVinculados == old(apenasNaoVinculados) &&
                   currentContratos == old(currentContratos)
              else filtro == f && apenasNaoVinculados == apenas && currentContratos == []
    {
      req := Request(f, apenas, p, size);
      var isLoadingMore := p > 1 && filtro == f && apenasNaoVinculados == apenas;
      if !isLoadingMore {
        filtro := f;
        apenasNaoVinculados := apenas;
        currentContratos := [];
      }
      loading := true;
    }

    /** The success handler of the request `req`: accumulate, then publish page, size, list and total. */
    method ApplySuccess(req: Request, response: ContratosResponse)
      modifies this`currentContratos, this`page, this`pageSize, this`contratos, this`total, this`loading
      ensures currentContratos == Accumulated(old(currentContratos), req.page, response.data)
      ensures page == req.page && pageSize == req.pageSize
      ensures contratos == currentContratos && total == response.total && !loading
    {
      if req.page == 1 {
        currentContratos := response.data;
      } else {
        currentContratos := currentContratos + response.data;
      }
      page := req.page;
      pageSize := req.pageSize;
      contratos := currentContratos;
      total := response.total;
      loading := false;
    }

    /** The error handler: an empty list and a zero total are published, but the buffer is kept. */
    method ApplyError()
      modifies this`contratos, this`total, this`loading
      ensures contratos == [] && total == 0 && !loading
    {
      contratos := [];
      total := 0;
      loading := false;
    }

    /** Request another page with the stored filters and the published page size. */
    method ChangePage(p: int) returns (req: Request)
      modifies this`filtro, this`apenasNaoVinculados, this`currentContratos, this`loading
      ensures req == Request(old(filtro), old(apenasNaoVinculados), p, pageSize)
      ensures filtro == old(filtro) && apenasNaoVinculados == old(apenasNaoVinculados) && loading
      ensures currentContratos == if p > 1 then old(currentContratos) else []
    {
      req := SearchContratos(filtro, apenasNaoVinculados, p, pageSize);
    }

    /** A new page size restarts at page 1 with the stored filters. */
    method ChangePageSize(size: int) returns (req: Request)
      modifies this`filtro, this`apenasNaoVinculados, this`currentContratos, this`loading
      ensures req == Request(old(filtro), old(apenasNaoVinculados), 1, size)
      ensures filtro == old(filtro) && apenasNaoVinculados == old(apenasNaoVinculados)
      ensures currentContratos == [] && loading
    {
      req := SearchContratos(filtro, apenasNaoVinculados, 1, size);
    }

    /** Request the page after the last one that arrived; the published page itself does not move. */
    method LoadNextPage() returns (req: Request)
      modifies this`filtro, this`apenasNaoVinculados, this`currentContratos, this`loading
      ensures req == Request(old(filtro), old(apenasNaoVinculados), old(page) + 1, pageSize)
      ensures filtro == old(filtro) && apenasNaoVinculados == old(apenasNaoVinculados)
      ensures page == old(page) && loading
      ensures currentContratos == if old(page) >= 1 then old(currentContratos) else []
    {
      req := ChangePage(page + 1);
    }

    function GetCurrentPage(): int
      reads this
    {
      page
    }

    method SelectContrato(c: Contrato)
      modifies this`selected
      ensures selected == Some(c)
    {
      selected := Some(c);
    }

    method ClearSelection()
      modifies this`selected
      ensures selected.None?
    {
      selected := None;
    }
  }

  /** Two loadNextPage calls before any response ask for the same page. */
  method LoadNextPageTwice(svc: BasicInfoService) returns (first: Request, second: Request)
    modifies svc
    ensures first == second
    ensures first.page == old(svc.page) + 1
  {
    first := svc.LoadNextPage();
    second := svc.LoadNextPage();
  }

  /** A failed request leaves the buffer, so the next successful later page appends to the rows gathered before. */
  method ErrorKeepsBuffer(svc: BasicInfoService, req: Request, response: ContratosResponse)
    requires req.page != 1
    modifies svc
    ensures svc.contratos == old(svc.currentContratos) + response.data
  {
    svc.ApplyError();
    svc.ApplySuccess(req, response);
  }
}

=== FILE: collateral_service.dfy ===
/**
 * The collateral list of the form (`CollateralService`): an in-memory list of guarantees with
 * append and remove-by-id, the running total of their values, and a page view cut out of the
 * list by page number and page size.
 */
module Collateral {
  import opened Wrappers
  import opened JsCore

  /** A JavaScript number as far as `valor || 0` can tell: a finite value or NaN. */
  datatype JsNumber = Num(v: real) | NaN

  /** `n || 0`: zero and NaN are falsy and count as 0. */
  function OrZero(n: JsNumber): real {
    match n
    case Num(v) => v
    case NaN => 0.0
  }

  datatype Garantia = Garantia(
    id: string,
    tipo: string,
    tickerOuNome: string,
    garantidor: string,
    conta: string,
    vinculado: bool,
    pu: JsNumber,
    qtdAlocada: JsNumber,
    valor: JsNumber,
    lendingValue: JsNumber,
    emissor: string,
    codIsin: string,
    codAtivo: string,
    status: Option<string>)

  /** Whether the payload object has a `status` key, and if so what it holds (possibly undefined). */
  datatype PayloadStatus = NoStatusKey | StatusKey(value: Option<string>)

  /** What addGarantia receives: every field but the id, the status optional. */
  datatype GarantiaPayload = GarantiaPayload(
    tipo: string,
    tickerOuNome: string,
    garantidor: string,
    conta: string,
    vinculado: bool,
    pu: JsNumber,
    qtdAlocada: JsNumber,
    valor: JsNumber,
    lendingValue: JsNumber,
    emissor: string,
    codIsin: string,
    codAtivo: string,
    status: PayloadStatus)

  const DefaultStatus: string := "Dados completos"

  /**
   * `{ status: g.status ?? 'Dados completos', ...g, id }`: the spread comes after the default, so a
   * status key that is present wins even when it holds undefined.
   */
  function NewGarantia(g: GarantiaPayload, id: string): (r: Garantia)
    ensures r.id == id
    ensures r.status == match g.status
                        case NoStatusKey => Some(DefaultStatus)
                        case StatusKey(s) => s
    ensures r.tipo == g.tipo && r.tickerOuNome == g.tickerOuNome && r.garantidor == g.garantidor &&
            r.conta == g.conta && r.vinculado == g.vinculado
    ensures r.pu == g.pu && r.qtdAlocada == g.qtdAlocada && r.valor == g.valor && r.lendingValue == g.lendingValue
    ensures r.emissor == g.emissor && r.codIsin == g.codIsin && r.codAtivo == g.codAtivo
  {
    var status := match g.status
                  case NoStatusKey => Some(DefaultStatus)
                  case StatusKey(s) => s;
    Garantia(id, g.tipo, g.tickerOuNome, g.garantidor, g.conta, g.vinculado, g.pu, g.qtdAlocada,
             g.valor, g.lendingValue, g.emissor, g.codIsin, g.codAtivo, status)
  }

  /** `arr.reduce((s, g) => s + (g.valor || 0), 0)` */
  function Total(arr: seq<Garantia>): real {
    if arr == [] then 0.0 else Total(arr[..|arr| - 1]) + OrZero(arr[|arr| - 1].valor)
  }

  /** `arr.filter(x => x.id !== id)` */
  function Without(arr: seq<Garantia>, id: string): (r: seq<Garantia>)
    ensures |r| <= |arr|
    ensures forall x :: x in r <==> x in arr && x.id != id
  {
    if arr == [] then [] else (if arr[0].id != id then [arr[0]] else []) + Without(arr[1..], id)
  }

  /** The page view: `arr.slice((page - 1) * size, (page - 1) * size + size)`. */
  function Paged(arr: seq<Garantia>, page: int, size: int): seq<Garantia> {
    var start := (page - 1) * size;
    Slice(arr, start, start + size)
  }

  // ---------------------------------------------------------------- lemmas

  /** The total of a list with one more element is the old total plus that element's value (0 when falsy). */
  lemma TotalAppend(arr: seq<Garantia>, g: Garantia)
    ensures Total(arr + [g]) == Total(arr) + OrZero(g.valor)
  {
    assert (arr + [g])[..|arr|] == arr;
  }

  /** The total is additive over concatenation. */
  lemma {:induction false} TotalConcat(a: seq<Garantia>, b: seq<Garantia>)
    ensures Total(a + b) == Total(a) + Total(b)
  {
    if b != [] {
      var b' := b[..|b| - 1];
      assert (a + b)[..|a + b| - 1] == a + b';
      TotalConcat(a, b');
    } else {
      assert a + b == a;
    }
  }

  /** Removal distributes over concatenation, so it keeps the remaining elements in their order. */
  lemma {:induction false} WithoutConcat(a: seq<Garantia>, b: seq<Garantia>, id: string)
    ensures Without(a + b, id) == Without(a, id) + Without(b, id)
  {
    if a == [] {
      assert a + b == b;
    } else {
      assert (a + b)[1..] == a[1..] + b;
      WithoutConcat(a[1..], b, id);
    }
  }

  /** Removing an id no element has is the identity. */
  lemma {:induction false} WithoutUnknown(arr: seq<Garantia>, id: string)
    requires forall k :: 0 <= k < |arr| ==> arr[k].id != id
    ensures Without(arr, id) == arr
  {
    if arr != [] {
      WithoutUnknown(arr[1..], id);
    }
  }

  /** Adding with a fresh id and then removing that id gives back the list. */
  lemma AddThenRemove(arr: seq<Garantia>, g: GarantiaPayload, id: string)
    requires forall k :: 0 <= k < |arr| ==> arr[k].id != id
    ensures Without(arr + [NewGarantia(g, id)], id) == arr
  {
    WithoutConcat(arr, [NewGarantia(g, id)], id);
    WithoutUnknown(arr, id);
    assert [NewGarantia(g, id)][1..] == [];
  }

  lemma MulStep(p: int, size: int)
    ensures p * size == (p - 1) * size + size
  {
  }

  lemma MulNonNegative(a: int, b: int)
    requires a >= 0 && b >= 0
    ensures a * b >= 0
  {
  }

  /** With page ≥ 1 and size ≥ 0 the view is the window [(page-1)*size, page*size) cut off at the end of the list. */
  lemma PagedWindow(arr: seq<Garantia>, page: int, size: int)
    requires page >= 1 && size >= 0
    ensures var lo := Min((page - 1) * size, |arr|);
            var hi := Min(page * size, |arr|);
            lo <= hi && Paged(arr, page, size) == arr[lo..hi] && |Paged(arr, page, size)| <= size
  {
    var start := (page - 1) * size;
    MulNonNegative(page - 1, size);
    MulStep(page, size);
    SliceWindow(arr, start, start + size);
  }

  /** Pages 1 .. n laid end to end are the first n*size elements of the list. */
  lemma {:induction false} PagesCover(arr: seq<Garantia>, size: int, n: nat)
    requires size >= 0
    ensures PagesUpTo(arr, size, n) == arr[..Min(n * size, |arr|)]
  {
    if n > 0 {
      PagesCover(arr, size, n - 1);
      PagedWindow(arr, n, size);
      MulStep(n, size);
      MulNonNegative(n - 1, size);
      var lo := Min((n - 1) * size, |arr|);
      var hi := Min(n * size, |arr|);
      assert arr[..lo] + arr[lo..hi] == arr[..hi];
    }
  }

  function PagesUpTo(arr: seq<Garantia>, size: int, n: nat): seq<Garantia> {
    if n == 0 then [] else PagesUpTo(arr, size, n - 1) + Paged(arr, n, size)
  }

  // ---------------------------------------------------------------- the service

  class CollateralService {
    var garantias: seq<Garantia>
    var page: int
    var pageSize: int
    var loading: bool

    constructor ()
      ensures garantias == [] && page == 1 && pageSize == 12 && !loading
    {
      garantias := [];
      page := 1;
      pageSize := 12;
      loading := false;
    }

    /** `total$` */
    function TotalValue(): real
      reads this
    {
      Total(garantias)
    }

    /** `pagedGarantias$` */
    function PagedGarantias(): seq<Garantia>
      reads this
    {
      Paged(garantias, page, pageSize)
    }

    /** Append a new guarantee under the caller-supplied fresh id. */
    method AddGarantia(g: GarantiaPayload, freshId: string)
      modifies this`garantias
      ensures garantias == old(garantias) + [NewGarantia(g, freshId)]
      ensures TotalValue() == old(TotalValue()) + OrZero(g.valor)
    {
      var nova := NewGarantia(g, freshId);
      TotalAppend(garantias, nova);
      garantias := garantias + [nova];
    }

    method RemoveGarantia(id: string)
      modifies this`garantias
      ensures garantias == Without(old(garantias), id)
    {
      garantias := Without(garantias, id);
    }

    /** The page is stored as given, without validation. */
    method ChangePage(p: int)
      modifies this`page
      ensures page == p
    {
      page := p;
    }

    method ChangePageSize(size: int)
      modifies this`pageSize, this`page
      ensures pageSize == size && page == 1
    {
      pageSize := size;
      page := 1;
    }

    method StartLoading()
      modifies this`loading
      ensures loading
    {
      loading := true;
    }

    method StopLoading()
      modifies this`loading
      ensures !loading
    {
      loading := false;
    }
  }
}

=== FILE: form_steps.dfy ===
/**
 * The form's own step bar (`FormStepsComponent`): a list of keyed steps, some disabled, and an
 * active key. Selecting, going back and going forward move the active key to an enabled step and
 * report it on the matching output; the outputs are the methods' results.
 */
module FormSteps {
  import opened Wrappers
  import opened JsCore

  /** A step of the form; an absent `disabled` reads as enabled. */
  datatype FormStep = FormStep(key: string, title: string, description: string, disabled: bool)

  /** The five steps the component starts with. */
  function DefaultSteps(): (r: seq<FormStep>)
    ensures |r| == 5 && r[0].key == "basic"
  {
    [FormStep("basic", "Informações básicas", "Dados de identificação do trade.", false),
     FormStep("collateral", "Garantias", "Detalhes de garantias.", false),
     FormStep("credits", "Créditos", "Condições e valores.", false),
     FormStep("documents", "Documentos", "Envio e validação de documentos.", false),
     FormStep("review", "Revisão", "Conferência final antes de enviar.", false)]
  }

  predicate Enabled(s: FormStep) {
    !s.disabled
  }

  /** The position of the first step with this key, or -1. */
  function IndexOfKey(steps: seq<FormStep>, key: string): int {
    FindIndex(steps, (s: FormStep) => s.key == key)
  }

  /** The first step with this key, if any. */
  function StepWithKey(steps: seq<FormStep>, key: string): (r: Option<FormStep>)
    ensures r.None? <==> forall j :: 0 <= j < |steps| ==> steps[j].key != key
    ensures r.Some? ==> r.value.key == key && r.value in steps
  {
    Find(steps, (s: FormStep) => s.key == key)
  }

  /**
   * `steps.slice(0, idx).reverse().find(enabled)`; with idx = -1 the slice drops only the last step.
   */
  function PrevEnabled(steps: seq<FormStep>, idx: int): Option<FormStep> {
    Find(Reverse(Slice(steps, 0, idx)), Enabled)
  }

  /** `steps.slice(idx + 1).find(enabled)` */
  function NextEnabled(steps: seq<FormStep>, idx: int): Option<FormStep> {
    Find(SliceFrom(steps, idx + 1), Enabled)
  }

  /** Back picks the enabled step nearest before idx (before the last step when idx is -1), or none when all of those are disabled. */
  lemma PrevEnabledIsNearest(steps: seq<FormStep>, idx: int)
    ensures var n, r := RelativeIndex(idx, |steps|), PrevEnabled(steps, idx);
            (r.None? <==> forall j :: 0 <= j < n ==> steps[j].disabled) &&
            (r.Some? ==> exists j :: 0 <= j < n && steps[j] == r.value && !steps[j].disabled &&
                                   forall k :: j < k < n ==> steps[k].disabled)
  {
    var n := RelativeIndex(idx, |steps|);
    var before := Slice(steps, 0, idx);
    assert before == steps[..n];
    var rev := Reverse(before);
    var r := Find(rev, Enabled);
    if r.Some? {
      var m :| 0 <= m < |rev| && rev[m] == r.value && Enabled(rev[m]) &&
               forall j :: 0 <= j < m ==> !Enabled(rev[j]);
      var j := n - 1 - m;
      assert steps[j] == rev[m];
      forall k | j < k < n ensures steps[k].disabled {
        assert rev[n - 1 - k] == steps[k];
      }
    } else {
      forall k | 0 <= k < n ensures steps[k].disabled {
        assert rev[n - 1 - k] == steps[k];
      }
    }
  }

  /** Next picks the enabled step nearest after idx, or none when every later step is disabled. */
  lemma NextEnabledIsNearest(steps: seq<FormStep>, idx: int)
    requires idx >= -1
    ensures var n, r := Min(idx + 1, |steps|), NextEnabled(steps, idx);
            (r.None? <==> forall j :: n <= j < |steps| ==> steps[j].disabled) &&
            (r.Some? ==> exists j :: n <= j < |steps| && steps[j] == r.value && !steps[j].disabled &&
                                   forall k :: n <= k < j ==> steps[k].disabled)
  {
    var n := Min(idx + 1, |steps|);
    var after := SliceFrom(steps, idx + 1);
    assert after == steps[n..];
    var r := Find(after, Enabled);
    if r.Some? {
      var m :| 0 <= m < |after| && after[m] == r.value && Enabled(after[m]) &&
               forall j :: 0 <= j < m ==> !Enabled(after[j]);
      assert steps[n + m] == after[m];
      forall k | n <= k < n + m ensures steps[k].disabled {
        assert after[k - n] == steps[k];
      }
    } else {
      forall k | n <= k < |steps| ensures steps[k].disabled {
        assert after[k - n] == steps[k];
      }
    }
  }

  /** With an active key that names no step, next looks from the first step and back looks at all but the last. */
  lemma UnknownActiveKey(steps: seq<FormStep>)
    requires |steps| > 0
    ensures RelativeIndex(-1, |steps|) == |steps| - 1
    ensures NextEnabled(steps, -1) == Find(steps, Enabled)
  {
    assert SliceFrom(steps, 0) == steps;
  }

  /** The default step keys are pairwise distinct, so each key selects exactly one step. */
  lemma DefaultKeysDistinct()
    ensures forall j, k :: 0 <= j < k < |DefaultSteps()| ==> DefaultSteps()[j].key != DefaultSteps()[k].key
  {
  }

  class FormStepsComponent {
    var steps: seq<FormStep>
    var activeKey: string

    /** The active key starts as the first default step's key, whatever steps are bound later. */
    constructor ()
      ensures steps == DefaultSteps() && activeKey == "basic"
    {
      steps := DefaultSteps();
      activeKey := DefaultSteps()[0].key;
    }

    /** The `steps` input. */
    method SetSteps(value: seq<FormStep>)
      modifies this`steps
      ensures steps == value
    {
      steps := value;
    }

    /** The `activeKeyInput` setter: a missing or empty value is ignored. */
    method SetActiveKeyInput(value: Option<string>)
      modifies this`activeKey
      ensures activeKey == if Truthy(value) then value.value else old(activeKey)
    {
      if Truthy(value) {
        activeKey := value.value;
      }
    }

    function ActiveStep(): (r: Option<FormStep>)
      reads this
      ensures r.Some? ==> r.value.key == activeKey && r.value in steps
      ensures r.None? <==> forall j :: 0 <= j < |steps| ==> steps[j].key != activeKey
    {
      StepWithKey(steps, activeKey)
    }

    /** Select a step by key; `emitted` is what `stepChange` emits. */
    method OnSelect(key: string) returns (emitted: Option<string>)
      modifies this`activeKey
      ensures var target := StepWithKey(steps, key);
              emitted == (if target.Some? && !target.value.disabled then Some(key) else None)
      ensures activeKey == if emitted.Some? then key else old(activeKey)
    {
      var target := StepWithKey(steps, key);
      if target.None? || target.value.disabled {
        return None;
      }
      activeKey := key;
      emitted := Some(key);
    }

    /** Go to the nearest enabled step before the active one; `emitted` is what `back` emits. */
    method OnBack() returns (emitted: Option<string>)
      modifies this`activeKey
      ensures var prev := PrevEnabled(steps, IndexOfKey(steps, old(activeKey)));
              emitted == (if prev.Some? then Some(prev.value.key) else None)
      ensures activeKey == if emitted.Some? then emitted.value else old(activeKey)
    {
      var idx := IndexOfKey(steps, activeKey);
      var prev := PrevEnabled(steps, idx);
      emitted := None;
      if prev.Some? {
        activeKey := prev.value.key;
        emitted := Some(prev.value.key);
      }
    }

    /** Go to the nearest enabled step after the active one; `emitted` is what `next` emits. */
    method OnNext() returns (emitted: Option<string>)
      modifies this`activeKey
      ensures var next := NextEnabled(steps, IndexOfKey(steps, old(activeKey)));
              emitted == (if next.Some? then Some(next.value.key) else None)
      ensures activeKey == if emitted.Some? then emitted.value else old(activeKey)
    {
      var idx := IndexOfKey(steps, activeKey);
      var next := NextEnabled(steps, idx);
      emitted := None;
      if next.Some? {
        activeKey := next.value.key;
        emitted := Some(next.value.key);
      }
    }
  }
}

=== FILE: js_core.dfy ===
/**
 * The few JavaScript built-ins the modelled code relies on, with their ECMAScript meaning:
 * truthiness of optional strings, `Array.prototype.findIndex`/`find`, `Array.prototype.slice`
 * (negative positions count from the end), `String.prototype.trim`, and the property-key
 * string of an integer (so that `obj[1]` and `obj["1"]` are one slot).
 */
module JsCore {
  import opened Wrappers

  /** An optional string is truthy in a condition when present and non-empty. */
  predicate Truthy(s: Option<string>) {
    s.Some? && s.value != ""
  }

  function Min(a: int, b: int): int {
    if a <= b then a else b
  }

  function Max(a: int, b: int): int {
    if a >= b then a else b
  }

  // ---------------------------------------------------------------- findIndex / find

  /** `s.findIndex(p)`: the first position satisfying p, or -1. */
  function FindIndex<T>(s: seq<T>, p: T -> bool): (r: int)
    ensures -1 <= r < |s|
    ensures r >= 0 ==> p(s[r]) && forall j :: 0 <= j < r ==> !p(s[j])
    ensures r == -1 <==> forall j :: 0 <= j < |s| ==> !p(s[j])
  {
    if s == [] then -1
    else if p(s[0]) then 0
    else
      var k := FindIndex(s[1..], p);
      if k < 0 then -1 else k + 1
  }

  /** `s.find(p)`: the first element satisfying p, or undefined. */
  function Find<T>(s: seq<T>, p: T -> bool): (r: Option<T>)
    ensures r.None? <==> forall j :: 0 <= j < |s| ==> !p(s[j])
    ensures r.Some? ==> exists k :: 0 <= k < |s| && s[k] == r.value && p(s[k]) &&
                                    forall j :: 0 <= j < k ==> !p(s[j])
  {
    var k := FindIndex(s, p);
    if k < 0 then None else Some(s[k])
  }

  // ---------------------------------------------------------------- slice

  /** How `slice` reads a position: negative counts back from the end, then clip to [0, len]. */
  function RelativeIndex(i: int, len: nat): (r: nat)
    ensures r <= len
  {
    if i < 0 then (if len + i < 0 then 0 else len + i)
    else if i > len then len
    else i
  }

  /** `s.slice(start, end)` */
  function Slice<T>(s: seq<T>, start: int, end: int): (r: seq<T>)
    ensures |r| <= |s|
  {
    var a := RelativeIndex(start, |s|);
    var b := RelativeIndex(end, |s|);
    if a < b then s[a..b] else []
  }

  /** `s.slice(start)`: the end defaults to the length. */
  function SliceFrom<T>(s: seq<T>, start: int): seq<T> {
    Slice(s, start, |s|)
  }

  /** With non-negative positions, a slice is the window [start, end) cut off at the end of s. */
  lemma SliceWindow<T>(s: seq<T>, start: int, end: int)
    requires 0 <= start && 0 <= end
    ensures var a, b := Min(start, |s|), Max(Min(start, |s|), Min(end, |s|));
            Slice(s, start, end) == s[a..b]
    ensures |Slice(s, start, end)| <= Max(end - start, 0)
  {
  }

  /** A negative start counts from the end: `slice(-k)` keeps the last k elements. */
  lemma SliceFromNegative<T>(s: seq<T>, k: int)
    requires 0 < k <= |s|
    ensures SliceFrom(s, -k) == s[|s| - k..]
  {
  }

  /** `s.reverse()` on a copy. */
  function Reverse<T>(s: seq<T>): (r: seq<T>)
    ensures |r| == |s| && forall k :: 0 <= k < |s| ==> r[k] == s[|s| - 1 - k]
  {
    if s == [] then [] else Reverse(s[1..]) + [s[0]]
  }

  // ---------------------------------------------------------------- trim

  /** ECMAScript WhiteSpace and LineTerminator code points, which `trim` removes. */
  predicate IsWhiteSpace(c: char) {
    c == '\t' || c == '\n' || c == '\U{000B}' || c == '\U{000C}' || c == '\r' || c == ' ' ||
    c == '\U{00A0}' || c == '\U{1680}' || ('\U{2000}' <= c <= '\U{200A}') ||
    c == '\U{2028}' || c == '\U{2029}' || c == '\U{202F}' || c == '\U{205F}' ||
    c == '\U{3000}' || c == '\U{FEFF}'
  }

  /** Drops the leading white space. */
  function TrimStart(s: string): (r: string)
    ensures |r| <= |s|
  {
    if s != [] && IsWhiteSpace(s[0]) then TrimStart(s[1..]) else s
  }

  /** Drops the trailing white space. */
  function TrimEnd(s: string): (r: string)
    ensures |r| <= |s|
  {
    if s != [] && IsWhiteSpace(s[|s| - 1]) then TrimEnd(s[..|s| - 1]) else s
  }

  /** What TrimStart drops is all white space, and what it keeps is a suffix that does not start with white space. */
  lemma {:induction false} TrimStartSpec(s: string)
    ensures var r := TrimStart(s);
            r == s[|s| - |r|..] &&
            (forall k :: 0 <= k < |s| - |r| ==> IsWhiteSpace(s[k])) &&
            (r == [] || !IsWhiteSpace(r[0]))
  {
    if s != [] && IsWhiteSpace(s[0]) {
      TrimStartSpec(s[1..]);
    }
  }

  /** What TrimEnd drops is all white space, and what it keeps is a prefix that does not end with white space. */
  lemma {:induction false} TrimEndSpec(s: string)
    ensures var r := TrimEnd(s);
            r == s[..|r|] &&
            (forall k :: |r| <= k < |s| ==> IsWhiteSpace(s[k])) &&
            (r == [] || !IsWhiteSpace(r[|r| - 1]))
  {
    if s != [] && IsWhiteSpace(s[|s| - 1]) {
      TrimEndSpec(s[..|s| - 1]);
    }
  }

  /** `s.trim()` */
  function Trim(s: string): string {
    TrimEnd(TrimStart(s))
  }

  /** The trimmed string has no white space at either end. */
  lemma TrimEdges(s: string)
    ensures var r := Trim(s); r == [] || (!IsWhiteSpace(r[0]) && !IsWhiteSpace(r[|r| - 1]))
  {
    var t := TrimStart(s);
    TrimStartSpec(s);
    TrimEndSpec(t);
    var r := TrimEnd(t);
    assert r != [] ==> r[0] == t[0];
  }

  /** The trimmed string is a contiguous part of s, and everything around it is white space. */
  lemma TrimWindow(s: string)
    ensures var a, r := |s| - |TrimStart(s)|, Trim(s);
            a + |r| <= |s| && r == s[a..a + |r|] &&
            (forall k :: 0 <= k < a ==> IsWhiteSpace(s[k])) &&
            (forall k :: a + |r| <= k < |s| ==> IsWhiteSpace(s[k]))
  {
    var t := TrimStart(s);
    TrimStartSpec(s);
    TrimEndSpec(t);
    var r := Trim(s);
    var a := |s| - |t|;
    assert r == t[..|r|] && t == s[a..];
    assert r == s[a..a + |r|];
    forall k | a + |r| <= k < |s| ensures IsWhiteSpace(s[k]) {
      assert s[k] == t[k - a];
    }
  }

  /** Trimming twice is trimming once. */
  lemma TrimIdempotent(s: string)
    ensures Trim(Trim(s)) == Trim(s)
  {
    var r := Trim(s);
    TrimEdges(s);
    assert TrimStart(r) == r;
    assert TrimEnd(r) == r;
  }

  /** The trimmed string is empty exactly when s is all white space. */
  lemma TrimEmptyIffAllWhiteSpace(s: string)
    ensures Trim(s) == "" <==> forall k :: 0 <= k < |s| ==> IsWhiteSpace(s[k])
  {
    TrimWindow(s);
    if forall k :: 0 <= k < |s| ==> IsWhiteSpace(s[k]) {
      AllWhiteSpaceTrimsToEmpty(s);
    }
  }

  lemma {:induction false} AllWhiteSpaceTrimsToEmpty(s: string)
    requires forall k :: 0 <= k < |s| ==> IsWhiteSpace(s[k])
    ensures TrimStart(s) == ""
  {
    if s != [] {
      AllWhiteSpaceTrimsToEmpty(s[1..]);
    }
  }

  // ---------------------------------------------------------------- filter(Boolean) / join

  /** `parts.filter(Boolean)` over optional strings: the present, non-empty ones, in order. */
  function FilterTruthy(parts: seq<Option<string>>): (r: seq<string>)
    ensures |r| <= |parts|
    ensures forall k :: 0 <= k < |r| ==> r[k] != ""
  {
    if parts == [] then []
    else (if Truthy(parts[0]) then [parts[0].value] else []) + FilterTruthy(parts[1..])
  }

  /** Filtering two optional words keeps each one that is truthy, in order. */
  lemma FilterTruthyPair(a: Option<string>, b: Option<string>)
    ensures FilterTruthy([a, b]) == (if Truthy(a) then [a.value] else []) + (if Truthy(b) then [b.value] else [])
  {
    assert [a, b][1..] == [b];
    assert [b][1..] == [];
  }

  /** `words.join(sep)` */
  function Join(words: seq<string>, sep: string): string {
    if words == [] then ""
    else if |words| == 1 then words[0]
    else words[0] + sep + Join(words[1..], sep)
  }

  /** Joining two optional words with a space: both, either one alone, or the empty string. */
  lemma JoinTruthyPair(a: Option<string>, b: Option<string>)
    ensures Join(FilterTruthy([a, b]), " ") ==
            if Truthy(a) && Truthy(b) then a.value + " " + b.value
            else if Truthy(a) then a.value
            else if Truthy(b) then b.value
            else ""
  {
    assert [a, b][1..] == [b];
    assert [b][1..] == [];
  }

  // ---------------------------------------------------------------- integer property keys

  function DigitChar(d: int): (c: char)
    requires 0 <= d < 10
    ensures '0' <= c <= '9'
  {
    (48 + d) as char
  }

  /** The decimal numeral of n, as `String(n)` writes it. */
  function NatToString(n: nat): (r: string)
    ensures |r| >= 1 && (n >= 10 <==> |r| >= 2)
    ensures forall k :: 0 <= k < |r| ==> '0' <= r[k] <= '9'
  {
    if n < 10 then [DigitChar(n)] else NatToString(n / 10) + [DigitChar(n % 10)]
  }

  /** The property key an integer index becomes when used on a plain object. */
  function IntToString(i: int): (r: string)
    ensures |r| >= 1
  {
    if i < 0 then "-" + NatToString(-i) else NatToString(i)
  }

  lemma {:induction false} NatToStringInjective(a: nat, b: nat)
    requires NatToString(a) == NatToString(b)
    ensures a == b
  {
    var sa, sb := NatToString(a), NatToString(b);
    if a >= 10 && b >= 10 {
      var pa, pb := NatToString(a / 10), NatToString(b / 10);
      assert sa == pa + [DigitChar(a % 10)] && sb == pb + [DigitChar(b % 10)];
      assert |pa| == |pb|;
      assert pa == sa[..|pa|] == sb[..|pb|] == pb;
      assert DigitChar(a % 10) == sa[|pa|] == sb[|pb|] == DigitChar(b % 10);
      NatToStringInjective(a / 10, b / 10);
    } else {
      assert |sa| == 1 && |sb| == 1;
      assert sa[0] == DigitChar(a) && sb[0] == DigitChar(b);
    }
  }

  lemma KeySign(i: int)
    ensures IntToString(i)[0] == '-' <==> i < 0
  {
  }

  /** Distinct integers become distinct property keys. */
  lemma IntToStringInjective(a: int, b: int)
    requires IntToString(a) == IntToString(b)
    ensures a == b
  {
    var sa, sb := IntToString(a), IntToString(b);
    KeySign(a);
    KeySign(b);
    if a < 0 && b < 0 {
      assert NatToString(-a) == sa[1..] == sb[1..] == NatToString(-b);
      NatToStringInjective(-a, -b);
    } else if a >= 0 && b >= 0 {
      NatToStringInjective(a, b);
    }
  }
}

=== FILE: stepper_component.dfy ===
/**
 * The stepper component: the presentation rules that turn a step's status and registration into
 * CSS classes, icon, colours and tooltip, the first/last flags, and the click and keyboard
 * handlers that choose a navigation target and hand it to the engine's goTo.
 */
module StepperComponent {
  import opened Wrappers
  import opened JsCore
  import opened StepperTypes
  import opened Stepper

  const DefaultSuccessIcon: string := "bi bi-check-circle-fill"
  const DefaultErrorIcon: string := "bi bi-exclamation-circle-fill"
  const SuccessTooltipKey: string := "STEPPER_SUCCESS_TOOLTIP"
  const ErrorTooltipKey: string := "STEPPER_ERROR_TOOLTIP"
  const StepTooltipKey: string := "STEPPER_STEP_TOOLTIP"

  /** `statuses[step.index] ?? 'pending'` */
  function StatusOf(statuses: map<int, Status>, index: int): (s: Status)
    ensures index !in statuses ==> s == Pending
    ensures index in statuses ==> s == statuses[index]
  {
    Lookup(statuses, index).GetOr(Pending)
  }

  /** `getStepClasses`: the base pair, then the item class and the step's own class when set. */
  function StepClasses(s: Status, stepItemClass: Option<string>, cssClass: Option<string>): (r: seq<string>)
    ensures |r| == 2 + (if Truthy(stepItemClass) then 1 else 0) + (if Truthy(cssClass) then 1 else 0)
    ensures r[0] == "step" && r[1] == "step-status-" + StatusName(s)
    ensures Truthy(stepItemClass) ==> r[2] == stepItemClass.value
    ensures Truthy(cssClass) ==> r[|r| - 1] == cssClass.value
  {
    FilterTruthyPair(stepItemClass, cssClass);
    ["step", "step-status-" + StatusName(s)] + FilterTruthy([stepItemClass, cssClass])
  }

  /** `getTitleClasses`: the title class, then the success class only when finished and the error class only on error. */
  function TitleClasses(s: Status, stepTitleClass: Option<string>, m: StepMeta): (r: seq<string>)
    ensures |r| == (if Truthy(stepTitleClass) then 1 else 0) +
                   (if (s == Finished && Truthy(m.successTitleClass)) || (s == Error && Truthy(m.errorTitleClass)) then 1 else 0)
    ensures Truthy(stepTitleClass) ==> r[0] == stepTitleClass.value
    ensures s == Finished && Truthy(m.successTitleClass) ==> r[|r| - 1] == m.successTitleClass.value
    ensures s == Error && Truthy(m.errorTitleClass) ==> r[|r| - 1] == m.errorTitleClass.value
  {
    var extra := if s == Finished then m.successTitleClass else if s == Error then m.errorTitleClass else None;
    FilterTruthyPair(stepTitleClass, extra);
    FilterTruthy([stepTitleClass, extra])
  }

  function TitleColor(s: Status, m: StepMeta): Option<string> {
    if s == Finished then m.successTitleColor else if s == Error then m.errorTitleColor else None
  }

  function IconColor(s: Status, m: StepMeta): Option<string> {
    if s == Finished then m.successIconColor else if s == Error then m.errorIconColor else None
  }

  /** `getIconClass`: no icon for pending and active; otherwise the icon (or its default) and the extra class, space-joined. */
  function IconClass(s: Status, m: StepMeta): (r: Option<string>)
    ensures r.None? <==> (s == Pending || s == Active)
  {
    match s
    case Finished => Some(Join(FilterTruthy([Some(m.successIcon.GetOr(DefaultSuccessIcon)), m.successIconClass]), " "))
    case Error => Some(Join(FilterTruthy([Some(m.errorIcon.GetOr(DefaultErrorIcon)), m.errorIconClass]), " "))
    case _ => None
  }

  function ShouldShowIcon(s: Status, m: StepMeta): bool {
    if s == Finished then m.showIconOnFinished.GetOr(true)
    else if s == Error then m.showIconOnError.GetOr(true)
    else false
  }

  function Tooltip(s: Status, m: StepMeta): string {
    if s == Finished then m.successTooltip.OrElse(m.tooltip).GetOr(SuccessTooltipKey)
    else if s == Error then m.errorTooltip.OrElse(m.tooltip).GetOr(ErrorTooltipKey)
    else m.tooltip.GetOr(StepTooltipKey)
  }

  function IsFirst<D>(e: Engine<D>): bool {
    e.currentIndex == 0
  }

  function IsLast<D>(e: Engine<D>): bool {
    e.currentIndex >= |e.steps| - 1
  }

  /** The navigation target a key press asks for, or None for a key the stepper ignores. */
  function KeyTarget(key: string, index: int, count: int): Option<int> {
    if key == "ArrowRight" || key == "ArrowDown" then Some(index + 1)
    else if key == "ArrowLeft" || key == "ArrowUp" then Some(index - 1)
    else if key == "Home" then Some(0)
    else if key == "End" then Some(count - 1)
    else None
  }

  // ---------------------------------------------------------------- lemmas

  /** The icon class, written out: finished and error give the icon (or its default) then the extra class when set. */
  lemma IconClassShape(s: Status, m: StepMeta)
    ensures s == Finished ==>
            var base := m.successIcon.GetOr(DefaultSuccessIcon);
            IconClass(s, m) == Some(
              if base != "" && Truthy(m.successIconClass) then base + " " + m.successIconClass.value
              else if base != "" then base
              else if Truthy(m.successIconClass) then m.successIconClass.value
              else "")
    ensures s == Error ==>
            var base := m.errorIcon.GetOr(DefaultErrorIcon);
            IconClass(s, m) == Some(
              if base != "" && Truthy(m.errorIconClass) then base + " " + m.errorIconClass.value
              else if base != "" then base
              else if Truthy(m.errorIconClass) then m.errorIconClass.value
              else "")
    ensures s == Finished && m.successIcon.None? && !Truthy(m.successIconClass) ==> IconClass(s, m) == Some(DefaultSuccessIcon)
    ensures s == Error && m.errorIcon.None? && !Truthy(m.errorIconClass) ==> IconClass(s, m) == Some(DefaultErrorIcon)
  {
    JoinTruthyPair(Some(m.successIcon.GetOr(DefaultSuccessIcon)), m.successIconClass);
    JoinTruthyPair(Some(m.errorIcon.GetOr(DefaultErrorIcon)), m.errorIconClass);
  }

  /** An icon is shown only for finished and error steps, by default shown, and only where an icon class exists. */
  lemma ShouldShowIconRules(s: Status, m: StepMeta)
    ensures ShouldShowIcon(s, m) ==> IconClass(s, m).Some?
    ensures (s == Pending || s == Active) ==> !ShouldShowIcon(s, m)
    ensures s == Finished ==> (ShouldShowIcon(s, m) <==> m.showIconOnFinished != Some(false))
    ensures s == Error ==> (ShouldShowIcon(s, m) <==> m.showIconOnError != Some(false))
  {
  }

  /** A step with no recorded status is presented exactly as a pending one. */
  lemma MissingStatusIsPending(statuses: map<int, Status>, index: int, m: StepMeta)
    requires index !in statuses
    ensures var s := StatusOf(statuses, index);
            IconClass(s, m).None? && !ShouldShowIcon(s, m) &&
            TitleColor(s, m).None? && IconColor(s, m).None? &&
            Tooltip(s, m) == m.tooltip.GetOr(StepTooltipKey)
  {
  }

  /** Colours are overridden only for finished (success colours) and error (error colours) steps. */
  lemma ColoursByStatus(s: Status, m: StepMeta)
    ensures TitleColor(s, m).Some? ==> s == Finished || s == Error
    ensures IconColor(s, m).Some? ==> s == Finished || s == Error
    ensures s == Finished ==> TitleColor(s, m) == m.successTitleColor && IconColor(s, m) == m.successIconColor
    ensures s == Error ==> TitleColor(s, m) == m.errorTitleColor && IconColor(s, m) == m.errorIconColor
  {
  }

  /** Tooltip fallbacks: the status override, then the step tooltip, then the status's translation key. */
  lemma TooltipFallbacks(s: Status, m: StepMeta)
    ensures s == Finished ==> Tooltip(s, m) == (if m.successTooltip.Some? then m.successTooltip.value
                                               else if m.tooltip.Some? then m.tooltip.value else SuccessTooltipKey)
    ensures s == Error ==> Tooltip(s, m) == (if m.errorTooltip.Some? then m.errorTooltip.value
                                            else if m.tooltip.Some? then m.tooltip.value else ErrorTooltipKey)
    ensures (s == Pending || s == Active) ==> Tooltip(s, m) == (if m.tooltip.Some? then m.tooltip.value else StepTooltipKey)
  {
  }

  /** isFirst holds exactly when prev cannot move, and isLast exactly when next cannot. */
  lemma FirstLastMatchNavigation<D>(e: Engine<D>)
    requires WellFormed(e)
    ensures IsFirst(e) <==> GoToTarget(e, Index(e.currentIndex - 1), Allow).None?
    ensures IsLast(e) <==> GoToTarget(e, Index(e.currentIndex + 1), Allow).None?
  {
  }

  /** The arrow keys step by one, Home and End jump to the ends, and every other key is ignored. */
  lemma KeyTargets(key: string, index: int, count: int)
    ensures KeyTarget(key, index, count).Some? <==>
            key in {"ArrowRight", "ArrowDown", "ArrowLeft", "ArrowUp", "Home", "End"}
    ensures key in {"ArrowRight", "ArrowDown"} ==> KeyTarget(key, index, count) == Some(index + 1)
    ensures key in {"ArrowLeft", "ArrowUp"} ==> KeyTarget(key, index, count) == Some(index - 1)
    ensures key == "Home" ==> KeyTarget(key, index, count) == Some(0)
    ensures key == "End" ==> KeyTarget(key, index, count) == Some(count - 1)
  {
  }

  /** Home and End always name a step that exists, so only a guard can stop them. */
  lemma HomeEndInRange<D>(e: Engine<D>, key: string, index: int)
    requires |e.steps| > 0 && (key == "Home" || key == "End")
    ensures var t := KeyTarget(key, index, |e.steps|).value;
            0 <= t < |e.steps| &&
            (GoToTarget(e, Index(t), Allow) == Some(t))
  {
  }

  // ---------------------------------------------------------------- the component

  class StepperComponent<D> {
    const service: StepperService<D>
    var navigable: bool

    constructor (service: StepperService<D>, navigable: bool)
      ensures this.service == service && this.navigable == navigable
    {
      this.service := service;
      this.navigable := navigable;
    }

    /** A click asks goTo for the clicked index, and only when the stepper is navigable. */
    method OnStepClick(index: int, guard: GuardResult)
      requires service.Valid()
      modifies service`statuses, service`visited, service`syntheticErrors, service`currentIndex
      ensures service.Valid()
      ensures service.Snapshot() ==
              if navigable then GoToSpec(old(service.Snapshot()), Index(index), guard).0 else old(service.Snapshot())
    {
      if !navigable {
        return;
      }
      var _ := service.GoTo(Index(index), guard);
    }

    /** A key press on step `index`; `prevented` says whether the default browser action was cancelled. */
    method OnStepKeydown(key: string, index: int, guard: GuardResult) returns (prevented: bool)
      requires service.Valid()
      modifies service`statuses, service`visited, service`syntheticErrors, service`currentIndex
      ensures service.Valid()
      ensures prevented <==> navigable && KeyTarget(key, index, |old(service.steps)|).Some?
      ensures service.Snapshot() ==
              if prevented then GoToSpec(old(service.Snapshot()), Index(KeyTarget(key, index, |old(service.steps)|).value), guard).0
              else old(service.Snapshot())
    {
      prevented := false;
      if !navigable {
        return;
      }
      ghost var count := |service.steps|;
      var target: int;
      if key == "ArrowRight" || key == "ArrowDown" {
        target := index + 1;
      } else if key == "ArrowLeft" || key == "ArrowUp" {
        target := index - 1;
      } else if key == "Home" {
        target := 0;
      } else if key == "End" {
        target := service.StepCount() - 1;
      } else {
        return;
      }
      assert KeyTarget(key, index, count) == Some(target);
      prevented := true;
      var _ := service.GoTo(Index(target), guard);
    }
  }

  /**
   * A step's teardown: save its payload (what its onSave hook produced, or the default) under its
   * alias when it has one, else under its index, then unregister it.
   */
  method DestroyStep<D>(service: StepperService<D>, index: int, alias: Option<string>, payload: D)
    requires service.Valid()
    modifies service`data, service`steps, service`statuses, service`visited, service`currentIndex
    ensures service.Valid()
    ensures var key := if alias.Some? then Alias(alias.value) else Index(index);
            service.Snapshot() == UnregisterSpec(SaveDataSpec(old(service.Snapshot()), key, payload), index)
  {
    var key := if alias.Some? then Alias(alias.value) else Index(index);
    service.SaveData(key, payload);
    service.UnregisterStep(index, alias);
  }

  /** The teardown keeps the saved payload readable after the step is gone. */
  lemma DestroyedStepDataSurvives<D>(e: Engine<D>, index: int, alias: Option<string>, payload: D)
    requires WellFormed(e)
    ensures var key := if alias.Some? then Alias(alias.value) else Index(index);
            var e' := UnregisterSpec(SaveDataSpec(e, key, payload), index);
            DataAt(e'.data, key) == Some(payload) && !IsRegistered(e'.steps, index)
  {
    var key := if alias.Some? then Alias(alias.value) else Index(index);
    UnregisterRemoves(SaveDataSpec(e, key, payload), index);
  }
}

=== FILE: stepper_service.dfy ===
/**
 * The stepper navigation engine (`StepperService`).
 *
 * The engine's whole state is captured by the value type `Engine`: the ordered registrations,
 * the current index, the status record, the visited and synthetic-error flags and the data
 * store. Each public operation is specified by a pure transition on `Engine` (`RegisterSpec`,
 * `UnregisterSpec`, `GoToSpec`, `ResetSpec`, ...), and the lemmas below state the engine's
 * navigation policy about those transitions. The class `StepperService` owns the same state as
 * fields and implements each operation step by step, with the source's loops, and each of its
 * methods is proved to move its state exactly as the transition says.
 *
 * The framework effect that keeps the current step active is `Reconciled`; it runs at the end of
 * an operation exactly when that operation changed the current index or the step count (`Settle`).
 */
module Stepper {
  import opened Wrappers
  import opened JsCore
  import opened StepperTypes

  // ================================================================ basic helpers

  /** The integers lo .. hi-1. */
  function Range(lo: int, hi: int): (r: set<int>)
    ensures forall k :: k in r <==> lo <= k < hi
    decreases hi - lo
  {
    if lo >= hi then {} else {lo} + Range(lo + 1, hi)
  }

  /** A status record read at k: `statuses[k]`, possibly undefined. */
  function Lookup(st: map<int, Status>, k: int): Option<Status> {
    if k in st then Some(st[k]) else None
  }

  /** The currentIndex adjustment after registering or unregistering. */
  function Clamp(cur: int, count: int): int {
    if cur >= count then Max(0, count - 1) else cur
  }

  // ================================================================ registrations

  predicate HasAlias(s: StepRegistration, a: string) {
    Truthy(s.alias) && s.alias.value == a
  }

  predicate IsRegistered(steps: seq<StepRegistration>, index: int) {
    exists k :: 0 <= k < |steps| && steps[k].index == index
  }

  ghost predicate IndicesUnique(steps: seq<StepRegistration>) {
    forall j, k :: 0 <= j < k < |steps| ==> steps[j].index != steps[k].index
  }

  ghost predicate AliasesUnique(steps: seq<StepRegistration>) {
    forall j, k :: 0 <= j < k < |steps| && Truthy(steps[j].alias) && Truthy(steps[k].alias) ==>
      steps[j].alias.value != steps[k].alias.value
  }

  /**
   * `aliasToIndex`: every truthy alias mapped to its step's index, later registrations
   * overwriting earlier ones.
   */
  function AliasIndex(steps: seq<StepRegistration>): (m: map<string, int>)
    ensures forall a :: a in m <==> exists k :: 0 <= k < |steps| && HasAlias(steps[k], a)
  {
    if steps == [] then map[]
    else
      var s := steps[|steps| - 1];
      var m := AliasIndex(steps[..|steps| - 1]);
      assert forall k :: 0 <= k < |steps| - 1 ==> steps[..|steps| - 1][k] == steps[k];
      if Truthy(s.alias) then m[s.alias.value := s.index] else m
  }

  /** With unique aliases, the alias map sends each step's alias to that step's index. */
  lemma {:induction false} AliasIndexAt(steps: seq<StepRegistration>, k: int)
    requires AliasesUnique(steps)
    requires 0 <= k < |steps| && Truthy(steps[k].alias)
    ensures steps[k].alias.value in AliasIndex(steps)
    ensures AliasIndex(steps)[steps[k].alias.value] == steps[k].index
  {
    var n := |steps| - 1;
    var prefix := steps[..n];
    var last := steps[n];
    var m := AliasIndex(prefix);
    assert AliasIndex(steps) == if Truthy(last.alias) then m[last.alias.value := last.index] else m;
    if k < n {
      assert prefix[k] == steps[k];
      assert AliasesUnique(prefix) by {
        forall j, i | 0 <= j < i < |prefix| ensures prefix[j] == steps[j] && prefix[i] == steps[i] { }
      }
      AliasIndexAt(prefix, k);
      assert Truthy(last.alias) ==> last.alias.value != steps[k].alias.value;
    }
  }

  /** `list.find(s => s.index === i)` */
  function FindStep(steps: seq<StepRegistration>, i: int): Option<StepRegistration> {
    Find(steps, (s: StepRegistration) => s.index == i)
  }

  /** With unique indices, looking a step up by its index finds exactly that registration. */
  lemma FindStepAt(steps: seq<StepRegistration>, k: int)
    requires IndicesUnique(steps) && 0 <= k < |steps|
    ensures FindStep(steps, steps[k].index) == Some(steps[k])
  {
  }

  /** Whether the registration with index i exists and has a `canExit` guard. */
  function HasCanExitAt(steps: seq<StepRegistration>, i: int): bool {
    match FindStep(steps, i)
    case Some(s) => s.meta.hasCanExit
    case None => false
  }

  /** `typeof key === 'number' ? key : aliasToIndex()[key]` */
  function Resolve(steps: seq<StepRegistration>, key: StepKey): Option<int> {
    match key
    case Index(n) => Some(n)
    case Alias(a) =>
      var m := AliasIndex(steps);
      if a in m then Some(m[a]) else None
  }

  /** Every registration with this index gets the merged metadata; all else stays. */
  function UpdateRegistrations(steps: seq<StepRegistration>, index: int, meta: StepMeta): (r: seq<StepRegistration>)
    ensures |r| == |steps|
  {
    seq(|steps|, k requires 0 <= k < |steps| =>
      if steps[k].index == index then steps[k].(meta := Merge(steps[k].meta, meta)) else steps[k])
  }

  /** The registration list after `registerStep` has passed the alias check: update in place, or append. */
  function WithRegistration(steps: seq<StepRegistration>, index: int, alias: Option<string>, meta: StepMeta): seq<StepRegistration> {
    if IsRegistered(steps, index) then UpdateRegistrations(steps, index, meta)
    else steps + [StepRegistration(index, alias, meta)]
  }

  /** `steps.filter(s => s.index !== index)` */
  function Unregistered(steps: seq<StepRegistration>, index: int): (r: seq<StepRegistration>)
    ensures |r| <= |steps|
    ensures forall s :: s in r <==> s in steps && s.index != index
  {
    if steps == [] then []
    else (if steps[0].index != index then [steps[0]] else []) + Unregistered(steps[1..], index)
  }

  /** Filtering keeps indices and aliases unique. */
  lemma {:induction false} UnregisteredUnique(steps: seq<StepRegistration>, index: int)
    requires IndicesUnique(steps) && AliasesUnique(steps)
    ensures IndicesUnique(Unregistered(steps, index)) && AliasesUnique(Unregistered(steps, index))
  {
    if steps != [] {
      var tail := steps[1..];
      assert IndicesUnique(tail) && AliasesUnique(tail) by {
        forall j | 0 <= j < |tail| ensures tail[j] == steps[j + 1] { }
      }
      UnregisteredUnique(tail, index);
      var rest := Unregistered(tail, index);
      forall x | x in rest
        ensures x.index != steps[0].index
        ensures Truthy(x.alias) && Truthy(steps[0].alias) ==> x.alias.value != steps[0].alias.value
      {
        var m :| 0 <= m < |tail| && tail[m] == x;
        assert steps[m + 1] == x;
      }
      var r := Unregistered(steps, index);
      if steps[0].index != index {
        assert r == [steps[0]] + rest;
        forall j, k | 0 <= j < k < |r|
          ensures r[j].index != r[k].index
          ensures Truthy(r[j].alias) && Truthy(r[k].alias) ==> r[j].alias.value != r[k].alias.value
        {
          if j == 0 {
            assert r[k] == rest[k - 1] && r[k] in rest;
          } else {
            assert r[j] == rest[j - 1] && r[k] == rest[k - 1];
          }
        }
      } else {
        assert r == rest;
      }
    }
  }

  /** With unique indices, unregistering a registered index removes exactly one step. */
  lemma {:induction false} UnregisteredCount(steps: seq<StepRegistration>, index: int)
    requires IndicesUnique(steps)
    ensures |Unregistered(steps, index)| == |steps| - (if IsRegistered(steps, index) then 1 else 0)
  {
    if steps != [] {
      var tail := steps[1..];
      assert IndicesUnique(tail) by {
        forall j | 0 <= j < |tail| ensures tail[j] == steps[j + 1] { }
      }
      UnregisteredCount(tail, index);
      if steps[0].index == index {
        assert !IsRegistered(tail, index) by {
          forall j | 0 <= j < |tail| ensures tail[j].index != index { assert tail[j] == steps[j + 1]; }
        }
      } else {
        assert IsRegistered(steps, index) <==> IsRegistered(tail, index) by {
          if IsRegistered(steps, index) {
            var k :| 0 <= k < |steps| && steps[k].index == index;
            assert tail[k - 1] == steps[k];
          }
          if IsRegistered(tail, index) {
            var k :| 0 <= k < |tail| && tail[k].index == index;
            assert steps[k + 1] == tail[k];
          }
        }
      }
    }
  }

  // ================================================================ status rules

  /** The reconciliation rule for an index k below the step count. */
  function ReconcileAt(st: map<int, Status>, idx: int, k: int): Status {
    if k == idx then (if k !in st || st[k] == Pending then Active else st[k])
    else if k !in st then Pending else st[k]
  }

  /** The effect's status pass over indices 0 .. count-1. */
  function ReconciledStatuses(st: map<int, Status>, idx: int, count: int): map<int, Status> {
    map k | k in st.Keys + Range(0, count) :: if 0 <= k < count then ReconcileAt(st, idx, k) else st[k]
  }

  /** Forward move: the new status of a step i below the target. */
  function SkipStatus(s: Option<Status>, wasVisited: bool, isSynthetic: bool, hasCanExit: bool): Status {
    if !wasVisited then Error
    else if s == Some(Error) && isSynthetic then (if hasCanExit then Error else Finished)
    else if s == Some(Error) then Error
    else Finished
  }

  /** Forward move: the new synthetic flag of a step i below the target. */
  function SkipSynthetic(s: Option<Status>, wasVisited: bool, isSynthetic: bool): bool {
    if !wasVisited then true
    else if s == Some(Error) && isSynthetic then false
    else isSynthetic
  }

  /** The statuses after the forward loop has handled the indices 0 .. upto-1. */
  function ForwardStatuses(st: map<int, Status>, vis: set<int>, syn: set<int>,
                           steps: seq<StepRegistration>, upto: int): map<int, Status> {
    map k | k in st.Keys + Range(0, upto) ::
      if 0 <= k < upto then SkipStatus(Lookup(st, k), k in vis, k in syn, HasCanExitAt(steps, k)) else st[k]
  }

  /** The synthetic flags after the forward loop has handled the indices 0 .. upto-1. */
  function ForwardSynthetic(st: map<int, Status>, vis: set<int>, syn: set<int>, upto: int): set<int> {
    set k | k in syn + Range(0, upto) &&
            (if 0 <= k < upto then SkipSynthetic(Lookup(st, k), k in vis, k in syn) else true)
  }

  /** Backward move: only an `active` departing step changes, to `finished`. */
  function Demoted(st: map<int, Status>, cur: int): map<int, Status> {
    if cur in st && st[cur] == Active then st[cur := Finished] else st
  }

  /** The target becomes `active` unless it already shows `finished` or `error`. */
  function Activated(st: map<int, Status>, t: int): map<int, Status> {
    if t !in st || st[t] == Pending || st[t] == Active then st[t := Active] else st
  }

  /** The statuses `reset` builds from scratch. */
  function ResetStatuses(idx: int, count: int): map<int, Status> {
    map k | k in Range(0, count) :: if k == idx then Active else Pending
  }

  /** The data-store slot of a key: index keys become their decimal string, as object keys do. */
  function KeyOf(key: StepKey): string {
    match key
    case Index(n) => IntToString(n)
    case Alias(a) => a
  }

  // ================================================================ the engine as a value

  datatype Engine<D> = Engine(
    steps: seq<StepRegistration>,
    currentIndex: int,
    statuses: map<int, Status>,
    visited: set<int>,
    synthetic: set<int>,
    data: map<string, D>)

  datatype RegisterOutcome = Registered | DuplicateAlias(alias: string)

  /** The state invariant every operation keeps. */
  ghost predicate WellFormed<D>(e: Engine<D>) {
    IndicesUnique(e.steps) && AliasesUnique(e.steps) &&
    0 <= e.currentIndex && (e.currentIndex < |e.steps| || e.currentIndex == 0)
  }

  /** The effect body: mark the current index visited and reconcile the statuses. */
  function Reconciled<D>(e: Engine<D>): Engine<D> {
    e.(visited := e.visited + {e.currentIndex},
       statuses := ReconciledStatuses(e.statuses, e.currentIndex, |e.steps|))
  }

  /** Run the effect iff the count or the current index differs from what it was before the operation. */
  function Settle<D>(e: Engine<D>, countBefore: int, indexBefore: int): Engine<D> {
    if |e.steps| != countBefore || e.currentIndex != indexBefore then Reconciled(e) else e
  }

  /** A freshly constructed service, after the effect's first run. */
  function Initial<D>(): Engine<D> {
    Reconciled(Engine([], 0, map[], {}, {}, map[]))
  }

  function RegisterSpec<D>(e: Engine<D>, index: int, alias: Option<string>, meta: StepMeta): (Engine<D>, RegisterOutcome) {
    if Truthy(alias) && alias.value in AliasIndex(e.steps) then (e, DuplicateAlias(alias.value))
    else
      var steps' := WithRegistration(e.steps, index, alias, meta);
      var st' := if index in e.statuses then e.statuses else e.statuses[index := Pending];
      var e1 := e.(steps := steps', statuses := st', currentIndex := Clamp(e.currentIndex, |steps'|));
      (Settle(e1, |e.steps|, e.currentIndex), Registered)
  }

  function UnregisterSpec<D>(e: Engine<D>, index: int): Engine<D> {
    var steps' := Unregistered(e.steps, index);
    var e1 := e.(steps := steps', statuses := e.statuses - {index},
                 currentIndex := Clamp(e.currentIndex, |steps'|));
    Settle(e1, |e.steps|, e.currentIndex)
  }

  /** The index goTo moves to, or None when it returns false without touching anything. */
  function GoToTarget<D>(e: Engine<D>, target: StepKey, guard: GuardResult): Option<int> {
    if |e.steps| <= 0 then None
    else match Resolve(e.steps, target)
      case None => None
      case Some(t) =>
        if t < 0 || t >= |e.steps| then None
        else if HasCanExitAt(e.steps, e.currentIndex) && guard == Block then None
        else Some(t)
  }

  /** The statuses after a successful goTo from cur to t, before the effect. */
  function MovedStatuses<D>(e: Engine<D>, t: int): map<int, Status> {
    var cur := e.currentIndex;
    var vis := e.visited + {cur};
    var st := if t > cur then ForwardStatuses(e.statuses, vis, e.synthetic, e.steps, t)
              else if t < cur then Demoted(e.statuses, cur)
              else e.statuses;
    Activated(st, t)
  }

  /** The synthetic flags after a successful goTo from cur to t. */
  function MovedSynthetic<D>(e: Engine<D>, t: int): set<int> {
    var cur := e.currentIndex;
    if t > cur then ForwardSynthetic(e.statuses, e.visited + {cur}, e.synthetic, t) else e.synthetic
  }

  /** The state after goTo has committed a move to t. */
  function Moved<D>(e: Engine<D>, t: int): Engine<D> {
    var e1 := e.(statuses := MovedStatuses(e, t), synthetic := MovedSynthetic(e, t),
                 visited := e.visited + {e.currentIndex, t}, currentIndex := t);
    Settle(e1, |e.steps|, e.currentIndex)
  }

  function GoToSpec<D>(e: Engine<D>, target: StepKey, guard: GuardResult): (Engine<D>, bool) {
    match GoToTarget(e, target, guard)
    case None => (e, false)
    case Some(t) => (Moved(e, t), true)
  }

  function ResetSpec<D>(e: Engine<D>, keepData: bool, index: Option<int>): Engine<D> {
    var idx := index.GetOr(0);
    var count := |e.steps|;
    var e1 := e.(statuses := ResetStatuses(idx, count),
                 currentIndex := Min(Max(idx, 0), Max(count - 1, 0)),
                 data := if keepData then e.data else map[],
                 visited := {idx},
                 synthetic := {});
    Settle(e1, count, e.currentIndex)
  }

  function SetStatusSpec<D>(e: Engine<D>, key: StepKey, status: Status): Engine<D> {
    match Resolve(e.steps, key)
    case None => e
    case Some(i) => e.(statuses := e.statuses[i := status])
  }

  function SaveDataSpec<D>(e: Engine<D>, key: StepKey, payload: D): Engine<D> {
    e.(data := e.data[KeyOf(key) := payload])
  }

  /** `getData(key)`: the stored payload, or undefined. */
  function DataAt<D>(data: map<string, D>, key: StepKey): Option<D> {
    if KeyOf(key) in data then Some(data[KeyOf(key)]) else None
  }

  // ================================================================ lemmas: reconciliation

  lemma ReconcileEmpty(st: map<int, Status>, idx: int, count: int)
    requires count <= 0
    ensures ReconciledStatuses(st, idx, count) == st
  {
    var r := ReconciledStatuses(st, idx, count);
    assert forall k :: k in r <==> k in st;
    assert forall k :: k in r ==> r[k] == st[k];
  }

  /** The effect never downgrades: finished, error and active stay; pending only rises to active at the current index. */
  lemma ReconcileNeverDowngrades(st: map<int, Status>, idx: int, count: int, k: int)
    requires k in st
    ensures var r := ReconciledStatuses(st, idx, count);
            k in r && (st[k] != Pending ==> r[k] == st[k]) &&
            (st[k] == Pending ==> r[k] == (if k == idx && 0 <= k < count then Active else Pending))
  {
  }

  /** After the effect, every index below the count has a status, and the current one is active unless it shows finished or error. */
  lemma ReconcileCovers(st: map<int, Status>, idx: int, count: int)
    ensures var r := ReconciledStatuses(st, idx, count);
            (forall k :: 0 <= k < count ==> k in r) &&
            (forall k :: k in r ==> k in st || 0 <= k < count) &&
            (0 <= idx < count ==> r[idx] == Active || r[idx] == Finished || r[idx] == Error) &&
            (0 <= idx < count && Lookup(st, idx) in {None, Some(Pending), Some(Active)} ==> r[idx] == Active)
  {
  }

  /** Running the effect twice is running it once. */
  lemma ReconcileIdempotent<D>(e: Engine<D>)
    ensures Reconciled(Reconciled(e)) == Reconciled(e)
  {
    var r := ReconciledStatuses(e.statuses, e.currentIndex, |e.steps|);
    assert ReconciledStatuses(r, e.currentIndex, |e.steps|) == r;
  }

  // ================================================================ lemmas: registration

  /** The initial state is well formed. */
  lemma InitialWellFormed<D>()
    ensures WellFormed(Initial<D>())
    ensures Initial<D>().visited == {0} && Initial<D>().statuses == map[]
  {
    ReconcileEmpty(map[], 0, 0);
  }

  /** An alias already in the alias map makes registration fail with nothing changed, even for the index that owns it. */
  lemma RegisterDuplicateAlias<D>(e: Engine<D>, k: int, index: int, meta: StepMeta)
    requires WellFormed(e) && 0 <= k < |e.steps| && Truthy(e.steps[k].alias)
    ensures var a := e.steps[k].alias.value;
            RegisterSpec(e, index, Some(a), meta) == (e, DuplicateAlias(a))
  {
    assert HasAlias(e.steps[k], e.steps[k].alias.value);
  }

  /** Re-registering an existing index keeps the count, the index and the alias, and merges the metadata. */
  lemma RegisterExistingIndex<D>(e: Engine<D>, k: int, alias: Option<string>, meta: StepMeta)
    requires WellFormed(e) && 0 <= k < |e.steps|
    requires !(Truthy(alias) && alias.value in AliasIndex(e.steps))
    ensures var (e', out) := RegisterSpec(e, e.steps[k].index, alias, meta);
            out == Registered && |e'.steps| == |e.steps| &&
            e'.steps[k] == StepRegistration(e.steps[k].index, e.steps[k].alias, Merge(e.steps[k].meta, meta)) &&
            (forall j :: 0 <= j < |e.steps| && j != k ==> e'.steps[j] == e.steps[j]) &&
            e'.currentIndex == e.currentIndex && e'.visited == e.visited &&
            e.steps[k].index in e'.statuses &&
            e'.statuses[e.steps[k].index] ==
              (if e.steps[k].index in e.statuses then e.statuses[e.steps[k].index] else Pending) &&
            (forall j :: j != e.steps[k].index ==> Lookup(e'.statuses, j) == Lookup(e.statuses, j))
  {
    assert IsRegistered(e.steps, e.steps[k].index);
  }

  /** Registering a new index appends exactly one registration and gives that index a status. */
  lemma RegisterNewIndex<D>(e: Engine<D>, index: int, alias: Option<string>, meta: StepMeta)
    requires WellFormed(e) && !IsRegistered(e.steps, index)
    requires !(Truthy(alias) && alias.value in AliasIndex(e.steps))
    ensures var (e', out) := RegisterSpec(e, index, alias, meta);
            out == Registered && e'.steps == e.steps + [StepRegistration(index, alias, meta)] &&
            index in e'.statuses &&
            (index !in e.statuses && index != e'.currentIndex ==> e'.statuses[index] == Pending) &&
            (index in e.statuses && e.statuses[index] != Pending ==> e'.statuses[index] == e.statuses[index])
  {
  }

  /** Registration keeps the state invariant. */
  lemma RegisterWellFormed<D>(e: Engine<D>, index: int, alias: Option<string>, meta: StepMeta)
    requires WellFormed(e)
    ensures WellFormed(RegisterSpec(e, index, alias, meta).0)
  {
    if !(Truthy(alias) && alias.value in AliasIndex(e.steps)) && !IsRegistered(e.steps, index) {
      var s := e.steps + [StepRegistration(index, alias, meta)];
      assert forall j :: 0 <= j < |e.steps| ==> s[j] == e.steps[j];
      forall j | 0 <= j < |e.steps| && Truthy(alias) && Truthy(e.steps[j].alias)
        ensures e.steps[j].alias.value != alias.value
      {
        if e.steps[j].alias.value == alias.value {
          assert HasAlias(e.steps[j], alias.value);
        }
      }
    }
  }

  /**
   * Unregistering removes every registration with that index and deletes its status entry; the
   * flags and the data stay. When the count or the clamped index changes, the effect then runs:
   * it marks the (new) current index visited and may give the deleted index a status again when
   * it is still below the count. Otherwise statuses lose exactly that entry and visited stays.
   */
  lemma UnregisterRemoves<D>(e: Engine<D>, index: int)
    requires WellFormed(e)
    ensures var e' := UnregisterSpec(e, index);
            !IsRegistered(e'.steps, index) &&
            (forall s :: s in e'.steps <==> s in e.steps && s.index != index) &&
            |e'.steps| == |e.steps| - (if IsRegistered(e.steps, index) then 1 else 0) &&
            e'.synthetic == e.synthetic && e'.data == e.data &&
            (index >= |e'.steps| || index < 0 ==> index !in e'.statuses) &&
            (forall k :: k != index && k in e.statuses ==> k in e'.statuses)
    ensures var e' := UnregisterSpec(e, index);
            var ran := IsRegistered(e.steps, index) || e'.currentIndex != e.currentIndex;
            e'.visited == e.visited + (if ran then {e'.currentIndex} else {}) &&
            (forall k :: k != index && k in e.statuses && e.statuses[k] != Pending ==> e'.statuses[k] == e.statuses[k]) &&
            (!ran ==> e'.statuses == e.statuses - {index})
  {
    UnregisteredCount(e.steps, index);
    var e' := UnregisterSpec(e, index);
    forall k | 0 <= k < |e'.steps| ensures e'.steps[k].index != index {
      assert e'.steps[k] in e'.steps;
    }
    forall k | k != index && k in e.statuses && e.statuses[k] != Pending
      ensures e'.statuses[k] == e.statuses[k]
    {
      if |e'.steps| != |e.steps| || e'.currentIndex != e.currentIndex {
        ReconcileNeverDowngrades(e.statuses - {index}, e'.currentIndex, |e'.steps|, k);
      }
    }
  }

  /** Unregistration keeps the state invariant. */
  lemma UnregisterWellFormed<D>(e: Engine<D>, index: int)
    requires WellFormed(e)
    ensures WellFormed(UnregisterSpec(e, index))
  {
    UnregisteredUnique(e.steps, index);
  }

  /** Both register and unregister pull an out-of-range current index back to max(0, count-1). */
  lemma RegistrationClamps<D>(e: Engine<D>, index: int, alias: Option<string>, meta: StepMeta)
    ensures var e' := UnregisterSpec(e, index);
            e'.currentIndex == (if e.currentIndex >= |e'.steps| then Max(0, |e'.steps| - 1) else e.currentIndex)
    ensures var (e', out) := RegisterSpec(e, index, alias, meta);
            out == Registered ==>
            e'.currentIndex == (if e.currentIndex >= |e'.steps| then Max(0, |e'.steps| - 1) else e.currentIndex)
  {
  }

  // ================================================================ lemmas: goTo

  /** goTo returns false and changes nothing with no steps, an unknown alias, an out-of-range index, or a blocking guard. */
  lemma GoToRejects<D>(e: Engine<D>, target: StepKey, guard: GuardResult)
    ensures |e.steps| == 0 ==> GoToSpec(e, target, guard) == (e, false)
    ensures target.Index? && (target.i < 0 || target.i >= |e.steps|) ==> GoToSpec(e, target, guard) == (e, false)
    ensures target.Alias? && target.a !in AliasIndex(e.steps) ==> GoToSpec(e, target, guard) == (e, false)
    ensures HasCanExitAt(e.steps, e.currentIndex) && guard == Block ==> GoToSpec(e, target, guard) == (e, false)
    ensures GoToSpec(e, target, guard).1 <==> GoToTarget(e, target, guard).Some?
  {
  }

  /** A throwing guard counts as permission, and the guard only matters when the current step has one. */
  lemma GoToFailOpen<D>(e: Engine<D>, target: StepKey)
    ensures GoToSpec(e, target, Throws) == GoToSpec(e, target, Allow)
    ensures !HasCanExitAt(e.steps, e.currentIndex) ==> GoToSpec(e, target, Block) == GoToSpec(e, target, Allow)
  {
  }

  /** Forward move: the per-index rule for every index below the target, flags included. */
  lemma GoToForwardBelowTarget<D>(e: Engine<D>, t: int, i: int)
    requires e.currentIndex < t && 0 <= i < t
    ensures var vis := e.visited + {e.currentIndex};
            var st, syn := MovedStatuses(e, t), MovedSynthetic(e, t);
            i in st &&
            (i !in vis ==> st[i] == Error && i in syn) &&
            (i in vis && Lookup(e.statuses, i) == Some(Error) && i in e.synthetic ==>
               i !in syn && st[i] == (if HasCanExitAt(e.steps, i) then Error else Finished)) &&
            (i in vis && Lookup(e.statuses, i) == Some(Error) && i !in e.synthetic ==> st[i] == Error && i !in syn) &&
            (i in vis && Lookup(e.statuses, i) != Some(Error) ==>
               st[i] == Finished && (i in syn <==> i in e.synthetic))
  {
  }

  /** Forward move: indices above the target are untouched. */
  lemma GoToForwardAboveTarget<D>(e: Engine<D>, t: int, k: int)
    requires e.currentIndex < t < k
    ensures Lookup(MovedStatuses(e, t), k) == Lookup(e.statuses, k)
    ensures k in MovedSynthetic(e, t) <==> k in e.synthetic
  {
  }

  /** Backward move: only the departing step changes (active to finished), besides the target. */
  lemma GoToBackward<D>(e: Engine<D>, t: int, k: int)
    requires t < e.currentIndex && k != t
    ensures Lookup(MovedStatuses(e, t), k) ==
            (if k == e.currentIndex && Lookup(e.statuses, k) == Some(Active) then Some(Finished)
             else Lookup(e.statuses, k))
    ensures MovedSynthetic(e, t) == e.synthetic
  {
  }

  /** The target becomes active only when it was absent, pending or active; otherwise its mark stays. */
  lemma GoToTargetStatus<D>(e: Engine<D>, t: int)
    ensures var before := Lookup(e.statuses, t);
            MovedStatuses(e, t)[t] == (if before in {None, Some(Pending), Some(Active)} then Active else before.value)
  {
  }

  /** A successful goTo lands on the target, marks departing and target visited, and keeps steps and data. */
  lemma GoToMoves<D>(e: Engine<D>, target: StepKey, guard: GuardResult)
    requires GoToTarget(e, target, guard).Some?
    ensures var t := GoToTarget(e, target, guard).value;
            var (e', ok) := GoToSpec(e, target, guard);
            ok && e'.currentIndex == t && 0 <= t < |e.steps| &&
            e'.visited == e.visited + {e.currentIndex, t} &&
            e'.steps == e.steps && e'.data == e.data
  {
  }

  /**
   * Skip and heal: jumping over an unvisited step marks it a synthetic error; going back to it
   * keeps the error shown; moving past it again heals it to finished, unless the step has a
   * canExit guard, in which case it stays an error that is no longer synthetic.
   */
  lemma SkipAndHeal<D>(e: Engine<D>, i: int, t: int)
    requires WellFormed(e) && e.currentIndex < i < t < |e.steps| && i !in e.visited
    ensures var e1 := Moved(e, t);
            i in e1.statuses && e1.statuses[i] == Error && i in e1.synthetic &&
            var e2 := Moved(e1, i);
            e2.statuses[i] == Error && e2.currentIndex == i &&
            var e3 := Moved(e2, t);
            e3.statuses[i] == (if HasCanExitAt(e.steps, i) then Error else Finished) && i !in e3.synthetic
  {
    GoToForwardBelowTarget(e, t, i);
    var e1 := Moved(e, t);
    ReconcileNeverDowngrades(MovedStatuses(e, t), t, |e.steps|, i);
    GoToTargetStatus(e1, i);
    var e2 := Moved(e1, i);
    ReconcileNeverDowngrades(MovedStatuses(e1, i), i, |e.steps|, i);
    assert i in e2.synthetic;
    GoToForwardBelowTarget(e2, t, i);
    ReconcileNeverDowngrades(MovedStatuses(e2, t), t, |e.steps|, i);
  }

  /** goTo keeps the state invariant. */
  lemma GoToWellFormed<D>(e: Engine<D>, target: StepKey, guard: GuardResult)
    requires WellFormed(e)
    ensures WellFormed(GoToSpec(e, target, guard).0)
  {
  }

  /** prev fails at the first step; next fails at the last. */
  lemma PrevNextBoundaries<D>(e: Engine<D>, guard: GuardResult)
    requires WellFormed(e)
    ensures e.currentIndex == 0 ==> GoToSpec(e, Index(e.currentIndex - 1), guard) == (e, false)
    ensures e.currentIndex >= |e.steps| - 1 ==> GoToSpec(e, Index(e.currentIndex + 1), guard) == (e, false)
  {
  }

  // ================================================================ lemmas: reset, status, data

  /** reset rebuilds statuses, visited and flags from scratch and clamps the index. */
  lemma ResetExact<D>(e: Engine<D>, keepData: bool, index: Option<int>)
    requires WellFormed(e)
    ensures var idx := index.GetOr(0);
            var count := |e.steps|;
            var e' := ResetSpec(e, keepData, index);
            e'.currentIndex == Min(Max(idx, 0), Max(count - 1, 0)) &&
            e'.synthetic == {} && e'.steps == e.steps &&
            e'.data == (if keepData then e.data else map[]) &&
            (0 <= idx < count ==>
               e'.visited == {idx} &&
               (forall k :: k in e'.statuses <==> 0 <= k < count) &&
               (forall k :: 0 <= k < count ==> e'.statuses[k] == (if k == idx then Active else Pending)))
    ensures WellFormed(ResetSpec(e, keepData, index))
  {
    var idx := index.GetOr(0);
    var count := |e.steps|;
    if 0 <= idx < count {
      var r := ResetStatuses(idx, count);
      assert ReconciledStatuses(r, idx, count) == r;
    }
  }

  /**
   * With an index outside the steps whose clamp moves the current index, the effect runs: the
   * clamped end becomes the only active step, and both the raw index and the clamped one are visited.
   */
  lemma ResetOutOfRangeMoves<D>(e: Engine<D>, keepData: bool, idx: int)
    requires WellFormed(e) && (idx < 0 || idx >= |e.steps|)
    requires Min(Max(idx, 0), Max(|e.steps| - 1, 0)) != e.currentIndex
    ensures var count, e' := |e.steps|, ResetSpec(e, keepData, Some(idx));
            var c := if idx < 0 then 0 else count - 1;
            count > 0 && e'.currentIndex == c && e'.visited == {idx, c} &&
            (forall k :: k in e'.statuses <==> 0 <= k < count) &&
            (forall k :: 0 <= k < count ==> e'.statuses[k] == (if k == c then Active else Pending))
  {
  }

  /** With an index outside the steps, reset leaves the statuses with no active step and the flag on that index. */
  lemma ResetOutOfRange<D>(e: Engine<D>, keepData: bool, idx: int)
    requires WellFormed(e) && (idx < 0 || idx >= |e.steps|)
    requires Min(Max(idx, 0), Max(|e.steps| - 1, 0)) == e.currentIndex
    ensures var e' := ResetSpec(e, keepData, Some(idx));
            e'.visited == {idx} && forall k :: k in e'.statuses ==> e'.statuses[k] == Pending
  {
  }

  /**
   * setStatus overwrites only the resolved index: the index itself, or the index of the step
   * carrying the alias. An unknown alias is a silent no-op.
   */
  lemma SetStatusOnly<D>(e: Engine<D>, key: StepKey, status: Status)
    ensures var e' := SetStatusSpec(e, key, status);
            e'.steps == e.steps && e'.currentIndex == e.currentIndex && e'.visited == e.visited &&
            e'.synthetic == e.synthetic && e'.data == e.data &&
            (key.Alias? && key.a !in AliasIndex(e.steps) ==> e' == e) &&
            (key.Index? ==> e'.statuses == e.statuses[key.i := status])
    ensures forall k :: WellFormed(e) && 0 <= k < |e.steps| && Truthy(e.steps[k].alias) &&
                        key == Alias(e.steps[k].alias.value) ==>
                        SetStatusSpec(e, key, status).statuses == e.statuses[e.steps[k].index := status]
  {
    forall k | WellFormed(e) && 0 <= k < |e.steps| && Truthy(e.steps[k].alias) && key == Alias(e.steps[k].alias.value)
      ensures SetStatusSpec(e, key, status).statuses == e.statuses[e.steps[k].index := status]
    {
      AliasIndexAt(e.steps, k);
    }
  }

  /** saveData then getData on the same key gives the payload back; other slots are untouched; missing keys read as absent. */
  lemma DataRoundTrip<D>(data: map<string, D>, key: StepKey, other: StepKey, payload: D)
    ensures DataAt(data[KeyOf(key) := payload], key) == Some(payload)
    ensures KeyOf(other) != KeyOf(key) ==> DataAt(data[KeyOf(key) := payload], other) == DataAt(data, other)
    ensures KeyOf(key) !in data ==> DataAt(data, key).None?
  {
  }

  /** Index keys share their slot with the alias spelled as their decimal string, and distinct indices never collide. */
  lemma DataKeys(i: int, j: int)
    ensures KeyOf(Index(i)) == KeyOf(Alias(IntToString(i)))
    ensures i != j ==> KeyOf(Index(i)) != KeyOf(Index(j))
  {
    if IntToString(i) == IntToString(j) {
      IntToStringInjective(i, j);
    }
  }

  // ================================================================ the forward pass

  lemma ForwardEmpty(st: map<int, Status>, vis: set<int>, syn: set<int>, steps: seq<StepRegistration>, upto: int)
    requires upto <= 0
    ensures ForwardStatuses(st, vis, syn, steps, upto) == st
    ensures ForwardSynthetic(st, vis, syn, upto) == syn
  {
    var r := ForwardStatuses(st, vis, syn, steps, upto);
    assert forall k :: k in r <==> k in st;
    assert forall k :: k in r ==> r[k] == st[k];
  }

  lemma ForwardStep(st: map<int, Status>, vis: set<int>, syn: set<int>, steps: seq<StepRegistration>, i: int)
    requires 0 <= i
    ensures ForwardStatuses(st, vis, syn, steps, i + 1) ==
            ForwardStatuses(st, vis, syn, steps, i)[i := SkipStatus(Lookup(st, i), i in vis, i in syn, HasCanExitAt(steps, i))]
    ensures ForwardSynthetic(st, vis, syn, i + 1) ==
            if SkipSynthetic(Lookup(st, i), i in vis, i in syn) then ForwardSynthetic(st, vis, syn, i) + {i}
            else ForwardSynthetic(st, vis, syn, i) - {i}
  {
  }

  /**
   * goTo's loop over the indices below the target: an unvisited step becomes a synthetic error;
   * a synthetic error heals to finished unless the step has a canExit guard (then it stays an
   * error, no longer synthetic); a real error stays; anything else becomes finished.
   */
  method ForwardPass(statuses: map<int, Status>, vis: set<int>, syntheticErrors: set<int>,
                     steps: seq<StepRegistration>, t: int)
    returns (st: map<int, Status>, syn: set<int>)
    ensures st == ForwardStatuses(statuses, vis, syntheticErrors, steps, t)
    ensures syn == ForwardSynthetic(statuses, vis, syntheticErrors, t)
  {
    st, syn := statuses, syntheticErrors;
    ForwardEmpty(statuses, vis, syntheticErrors, steps, 0);
    var i := 0;
    while i < t
      invariant 0 <= i <= Max(t, 0)
      invariant st == ForwardStatuses(statuses, vis, syntheticErrors, steps, i)
      invariant syn == ForwardSynthetic(statuses, vis, syntheticErrors, i)
    {
      ForwardStep(statuses, vis, syntheticErrors, steps, i);
      var s := Lookup(st, i);
      assert s == Lookup(statuses, i) && (i in syn <==> i in syntheticErrors);
      if i !in vis {
        st := st[i := Error];
        syn := syn + {i};
      } else {
        var stepReg := FindStep(steps, i);
        if s == Some(Error) && i in syn {
          if stepReg.Some? && stepReg.value.meta.hasCanExit {
            st := st[i := Error];
            syn := syn - {i};
          } else {
            st := st[i := Finished];
            syn := syn - {i};
          }
        } else {
          st := st[i := if s == Some(Error) then Error else Finished];
        }
      }
      i := i + 1;
    }
    if t < 0 {
      ForwardEmpty(statuses, vis, syntheticErrors, steps, t);
    }
  }

  /** reset's loop: a fresh record with idx active and every other index below count pending. */
  method BuildResetStatuses(idx: int, count: nat) returns (st: map<int, Status>)
    ensures st == ResetStatuses(idx, count)
  {
    st := map[];
    for i := 0 to count
      invariant st == ResetStatuses(idx, i)
    {
      st := st[i := if i == idx then Active else Pending];
      assert st == ResetStatuses(idx, i + 1);
    }
  }

  // ================================================================ the class

  class StepperService<D> {
    var steps: seq<StepRegistration>
    var currentIndex: int
    var statuses: map<int, Status>
    var visited: set<int>
    var syntheticErrors: set<int>
    var data: map<string, D>

    function Snapshot(): Engine<D>
      reads this
    {
      Engine(steps, currentIndex, statuses, visited, syntheticErrors, data)
    }

    ghost predicate Valid()
      reads this
    {
      WellFormed(Snapshot())
    }

    constructor ()
      ensures Valid() && Snapshot() == Initial<D>()
    {
      steps := [];
      currentIndex := 0;
      statuses := map[];
      visited := {};
      syntheticErrors := {};
      data := map[];
      new;
      Reconcile();
    }

    function StepCount(): nat
      reads this
    {
      |steps|
    }

    /** The effect: mark the current index visited; absent statuses below the count become pending, the current one active. */
    method Reconcile()
      modifies this`statuses, this`visited
      ensures Snapshot() == Reconciled(old(Snapshot()))
    {
      var idx := currentIndex;
      var count := |steps|;
      visited := visited + {idx};
      var st := statuses;
      ReconcileEmpty(statuses, idx, 0);
      for i := 0 to count
        invariant st == ReconciledStatuses(statuses, idx, i)
      {
        if i == idx {
          if i !in st || st[i] == Pending {
            st := st[i := Active];
          }
        } else if i !in st {
          st := st[i := Pending];
        }
        assert st == ReconciledStatuses(statuses, idx, i + 1);
      }
      statuses := st;
    }

    /** `aliasToIndex()` */
    method AliasToIndex() returns (m: map<string, int>)
      ensures m == AliasIndex(steps)
    {
      m := map[];
      for i := 0 to |steps|
        invariant m == AliasIndex(steps[..i])
      {
        assert steps[..i + 1][..i] == steps[..i];
        var s := steps[i];
        if Truthy(s.alias) {
          m := m[s.alias.value := s.index];
        }
      }
      assert steps[..|steps|] == steps;
    }

    method RegisterStep(index: int, alias: Option<string>, meta: StepMeta) returns (outcome: RegisterOutcome)
      requires Valid()
      modifies this`steps, this`statuses, this`visited, this`currentIndex
      ensures Valid()
      ensures (Snapshot(), outcome) == RegisterSpec(old(Snapshot()), index, alias, meta)
    {
      RegisterWellFormed(Snapshot(), index, alias, meta);
      if Truthy(alias) {
        var m := AliasToIndex();
        if alias.value in m {
          return DuplicateAlias(alias.value);
        }
      }
      var countBefore, indexBefore := |steps|, currentIndex;
      var list := steps;
      var st := statuses;
      if IsRegistered(list, index) {
        for i := 0 to |list|
          invariant |list| == |steps|
          invariant forall k :: 0 <= k < i ==> list[k] == UpdateRegistrations(steps, index, meta)[k]
          invariant forall k :: i <= k < |list| ==> list[k] == steps[k]
        {
          if list[i].index == index {
            list := list[i := list[i].(meta := Merge(list[i].meta, meta))];
          }
        }
        assert list == UpdateRegistrations(steps, index, meta);
      } else {
        list := list + [StepRegistration(index, alias, meta)];
      }
      steps := list;
      if index !in st {
        st := st[index := Pending];
      }
      statuses := st;
      // The clamp of the current index can never fire here: the count did not shrink.
      assert Clamp(currentIndex, |steps|) == currentIndex;
      if |steps| != countBefore || currentIndex != indexBefore {
        Reconcile();
      }
      outcome := Registered;
    }

    method UnregisterStep(index: int, alias: Option<string>)
      requires Valid()
      modifies this`steps, this`statuses, this`visited, this`currentIndex
      ensures Valid()
      ensures Snapshot() == UnregisterSpec(old(Snapshot()), index)
    {
      UnregisterWellFormed(Snapshot(), index);
      var countBefore, indexBefore := |steps|, currentIndex;
      steps := Unregistered(steps, index);
      statuses := statuses - {index};
      if currentIndex >= |steps| {
        currentIndex := Max(0, |steps| - 1);
      }
      if |steps| != countBefore || currentIndex != indexBefore {
        Reconcile();
      }
    }

    /** The guarded transition protocol; `guard` is what the current step's canExit produced, if it has one. */
    method GoTo(target: StepKey, guard: GuardResult) returns (moved: bool)
      requires Valid()
      modifies this`statuses, this`visited, this`syntheticErrors, this`currentIndex
      ensures Valid()
      ensures (Snapshot(), moved) == GoToSpec(old(Snapshot()), target, guard)
    {
      GoToWellFormed(Snapshot(), target, guard);
      var count := |steps|;
      if count <= 0 {
        return false;
      }
      var idx: int;
      match target {
        case Index(n) =>
          idx := n;
        case Alias(a) =>
          var m := AliasToIndex();
          if a !in m {
            return false;
          }
          idx := m[a];
      }
      if idx < 0 || idx >= count {
        return false;
      }
      var currentStep := FindStep(steps, currentIndex);
      if currentStep.Some? && currentStep.value.meta.hasCanExit && guard == Block {
        return false;
      }
      // Allow and Throws both go on: a guard that throws does not block.
      Commit(idx);
      moved := true;
    }

    /** The commit half of goTo, once the target is known and the guard has let it pass. */
    method Commit(idx: int)
      modifies this`statuses, this`visited, this`syntheticErrors, this`currentIndex
      ensures Snapshot() == Moved(old(Snapshot()), idx)
    {
      var currentIdx := currentIndex;
      var st := statuses;
      var vis := visited;
      var syn := syntheticErrors;
      vis := vis + {currentIdx};
      if idx > currentIdx {
        st, syn := ForwardPass(st, vis, syn, steps, idx);
      } else if idx < currentIdx {
        if currentIdx in st && st[currentIdx] == Active {
          st := st[currentIdx := Finished];
        }
      }
      if idx !in st || st[idx] == Pending || st[idx] == Active {
        st := st[idx := Active];
      }
      statuses := st;
      syntheticErrors := syn;
      vis := vis + {idx};
      visited := vis;
      currentIndex := idx;
      if idx != currentIdx {
        Reconcile();
      }
    }

    method Next(guard: GuardResult) returns (moved: bool)
      requires Valid()
      modifies this`statuses, this`visited, this`syntheticErrors, this`currentIndex
      ensures Valid()
      ensures (Snapshot(), moved) == GoToSpec(old(Snapshot()), Index(old(currentIndex) + 1), guard)
    {
      moved := GoTo(Index(currentIndex + 1), guard);
    }

    method Prev(guard: GuardResult) returns (moved: bool)
      requires Valid()
      modifies this`statuses, this`visited, this`syntheticErrors, this`currentIndex
      ensures Valid()
      ensures (Snapshot(), moved) == GoToSpec(old(Snapshot()), Index(old(currentIndex) - 1), guard)
    {
      moved := GoTo(Index(currentIndex - 1), guard);
    }

    /** `reset({keepData, index})`; an absent keepData clears the data store. */
    method Reset(keepData: bool, index: Option<int>)
      requires Valid()
      modifies this`statuses, this`visited, this`syntheticErrors, this`currentIndex, this`data
      ensures Valid()
      ensures Snapshot() == ResetSpec(old(Snapshot()), keepData, index)
    {
      ResetExact(Snapshot(), keepData, index);
      var indexBefore := currentIndex;
      var idx := index.GetOr(0);
      statuses := BuildResetStatuses(idx, |steps|);
      currentIndex := Min(Max(idx, 0), Max(|steps| - 1, 0));
      if !keepData {
        data := map[];
      }
      visited := {idx};
      syntheticErrors := {};
      if currentIndex != indexBefore {
        Reconcile();
      }
    }

    method SaveData(key: StepKey, payload: D)
      modifies this`data
      ensures Snapshot() == SaveDataSpec(old(Snapshot()), key, payload)
    {
      data := data[KeyOf(key) := payload];
    }

    function GetData(key: StepKey): (r: Option<D>)
      reads this
      ensures r.Some? <==> KeyOf(key) in data
      ensures r.Some? ==> r.value == data[KeyOf(key)]
      ensures r == DataAt(data, key)
    {
      if KeyOf(key) in data then Some(data[KeyOf(key)]) else None
    }

    method SetStatus(key: StepKey, status: Status)
      requires Valid()
      modifies this`statuses
      ensures Valid()
      ensures Snapshot() == SetStatusSpec(old(Snapshot()), key, status)
    {
      var index: int;
      match key {
        case Index(n) =>
          index := n;
        case Alias(a) =>
          var m := AliasToIndex();
          if a !in m {
            return;
          }
          index := m[a];
      }
      statuses := statuses[index := status];
    }
  }
}

=== FILE: stepper_types.dfy ===
/**
 * The stepper's value types: step status, the index-or-alias key, the outcome of a step's
 * `canExit` guard, and a step registration with the display metadata the engine stores and
 * merges field by field.
 */
module StepperTypes {
  import opened Wrappers

  datatype Status = Pending | Active | Finished | Error

  /** The status as the string used in CSS class names (`step-status-<name>`). */
  function StatusName(s: Status): string {
    match s
    case Pending => "pending"
    case Active => "active"
    case Finished => "finished"
    case Error => "error"
  }

  /** A step is addressed by its numeric index or by its alias. */
  datatype StepKey = Index(i: int) | Alias(a: string)

  /**
   * What a step's `canExit` guard produced when it was awaited: exactly `false`, any other
   * value, or an exception (or a rejected promise).
   */
  datatype GuardResult = Block | Allow | Throws

  /**
   * The registration fields besides `index` and `alias`. Each optional field is absent
   * (`undefined`/`null`) or holds a value; the guards are represented by whether they are set.
   */
  datatype StepMeta = StepMeta(
    title: Option<string>,
    tooltip: Option<string>,
    cssClass: Option<string>,
    hasCanEnter: bool,
    hasCanExit: bool,
    successIcon: Option<string>,
    errorIcon: Option<string>,
    successIconClass: Option<string>,
    errorIconClass: Option<string>,
    successIconColor: Option<string>,
    errorIconColor: Option<string>,
    successTitleClass: Option<string>,
    errorTitleClass: Option<string>,
    successTitleColor: Option<string>,
    errorTitleColor: Option<string>,
    successTooltip: Option<string>,
    errorTooltip: Option<string>,
    showIconOnFinished: Option<bool>,
    showIconOnError: Option<bool>)

  /** Metadata with every field absent: what `registerStep(index)` without `meta` passes. */
  const NoMeta: StepMeta := StepMeta(None, None, None, false, false, None, None, None, None,
                                     None, None, None, None, None, None, None, None, None, None)

  /** Re-registration: each field takes the new value when present, else keeps the old one. */
  function Merge(old_: StepMeta, new_: StepMeta): (m: StepMeta) {
    StepMeta(
      new_.title.OrElse(old_.title),
      new_.tooltip.OrElse(old_.tooltip),
      new_.cssClass.OrElse(old_.cssClass),
      new_.hasCanEnter || old_.hasCanEnter,
      new_.hasCanExit || old_.hasCanExit,
      new_.successIcon.OrElse(old_.successIcon),
      new_.errorIcon.OrElse(old_.errorIcon),
      new_.successIconClass.OrElse(old_.successIconClass),
      new_.errorIconClass.OrElse(old_.errorIconClass),
      new_.successIconColor.OrElse(old_.successIconColor),
      new_.errorIconColor.OrElse(old_.errorIconColor),
      new_.successTitleClass.OrElse(old_.successTitleClass),
      new_.errorTitleClass.OrElse(old_.errorTitleClass),
      new_.successTitleColor.OrElse(old_.successTitleColor),
      new_.errorTitleColor.OrElse(old_.errorTitleColor),
      new_.successTooltip.OrElse(old_.successTooltip),
      new_.errorTooltip.OrElse(old_.errorTooltip),
      new_.showIconOnFinished.OrElse(old_.showIconOnFinished),
      new_.showIconOnError.OrElse(old_.showIconOnError))
  }

  /** Re-registering without metadata leaves a registration's metadata as it was. */
  lemma MergeNoMeta(m: StepMeta)
    ensures Merge(m, NoMeta) == m
  {
  }

  /** Merging into an empty registration stores the new metadata verbatim, as a first registration does. */
  lemma MergeIntoEmpty(m: StepMeta)
    ensures Merge(NoMeta, m) == m
  {
  }

  /** Re-registering twice with the same metadata is the same as once. */
  lemma MergeIdempotent(m: StepMeta, n: StepMeta)
    ensures Merge(Merge(m, n), n) == Merge(m, n)
  {
  }

  /** A guard, once set, is never removed by re-registration; present new fields always win. */
  lemma MergeKeepsGuardsAndPrefersNew(m: StepMeta, n: StepMeta)
    ensures m.hasCanExit ==> Merge(m, n).hasCanExit
    ensures n.title.Some? ==> Merge(m, n).title == n.title
    ensures n.title.None? ==> Merge(m, n).title == m.title
  {
  }

  datatype StepRegistration = StepRegistration(index: int, alias: Option<string>, meta: StepMeta)
}

=== FILE: wrappers.dfy ===
/** Optional values, standing for JavaScript's `undefined`/`null` versus a present value. */
module Wrappers {

  datatype Option<+T> = None | Some(value: T) {

    /** `this ?? default` */
    function GetOr(default: T): T {
      match this
      case Some(v) => v
      case None => default
    }

    /** `this ?? other`, both optional */
    function OrElse(other: Option<T>): Option<T> {
      match this
      case Some(_) => this
      case None => other
    }
  }
}
